=== FILE: README.md ===
# golark query building, in Dafny

golark is a Go client for the Skylark REST API.
A caller builds a request from an endpoint, a collection and an optional id.
It then adds *fields* to it:

- a field can be included in the response, expanded (a reference the server should resolve), or both;
- it can carry *filters* (`gt`, `lt` or equality on its value);
- it can have sub-fields, whose names are qualified by their parent's name with a double underscore.

The request turns this tree into query parameters:

- `fields` is a comma list of the included names;
- `fields_to_expand` is a comma list of the expanded names;
- each filter becomes one parameter: `name` for equality, `name__gt` or `name__lt` otherwise;
- `order` and request-level filters become further parameters.

Last, the URL is assembled from the endpoint, collection, id and encoded query.

The model is a set of pure functions over immutable values; the loops of `apply` and `QueryParams` are methods. The files:

| file | module | models |
|---|---|---|
| `filters.dfy` | `Filters` | constraints, filters, the `__` separator and filter keys (filter.go, and the key rule shared by field.go and request.go) |
| `values.dfy` | `QueryValues` | the url.Values operations used (Get, Set, Add); `addValue` of util.go; comma joining and splitting |
| `fields.dfy` | `Fields` | fields and their builders (field.go); the serialisation `apply` and its specification |
| `requests.dfy` | `Requests` | requests and their builders, `QueryParams` and the URL text (request.go) |
| `scenarios.dfy` | `Scenarios` | the request scenarios of client_test.go, proved about the model |

Go iterates a map in an unspecified order.
`ApplyChildren` and `AddExtras` therefore pick the next key with `:|`, so every visiting order is covered.
Their results are specified as multisets of names and values.

- `Fields.Collect` and `Fields.CollectKids` state what a subtree contributes, independent of order.
- `Fields.Applied` relates a collection before and after a part of the tree is serialised.
  - Every filter value is appended after the values its key already holds; the multiset of appended values is what the part sends under that key.
  - A key the part sends nothing under keeps its values exactly, in order; the two list keys are handled separately.
  - Each list key gains the selected names as comma-appended steps, in some order.

Names are qualified eagerly, as in the source.
`WithSubField` and `Expand` rename the whole attached subtree at once: every node gets the new parent's name in front.
A child stays in its parent's map under the key it had when it was attached.

## Model

| member | source | states |
|---|---|---|
| Filters.NewFilter | filter.go:22-24 | the filter keeps the given constraint and value |
| Filters.FilterKey | field.go:29-35 | an Equals filter is sent under the field name; any other constraint under `name__code` |
| Filters.FilterKeyDeterminesConstraint | field.go:29-35 | two filters on one name share a parameter key if and only if they have the same constraint |
| Filters.ConstraintCodes | filter.go:12-19 | the three constraints have the codes `gt`, `lt` and the empty code, and are pairwise different |
| Filters.GreaterThanKeyExample | filter.go:12-19 | a greater-than filter on `year` is sent as `year__gt` |
| QueryValues.AddValue | util.go:5-13 | a key holding nothing gets the value; otherwise `,value` is appended to its first value. The key ends with exactly one value; every other key is unchanged |
| QueryValues.AddValuesAccumulates | util.go:5-13 | repeated addValue calls leave one value, built by the same comma steps in order, and touch no other key |
| QueryValues.AddValuesJoins | util.go:5-13 | adding non-empty words to an empty key stores exactly their comma join |
| QueryValues.EmptyNameOrder | util.go:5-13 | an empty name added first is lost (the next name gets no comma), and one added after a name leaves a trailing comma |
| QueryValues.SplitJoin | client_test.go:214-235 | splitting the comma join of comma-free words at commas gives the words back |
| Fields.NewField | field.go:17-20 | a new field is included, not expanded, with no sub-fields and no filters |
| Fields.AdjustName | field.go:53-58 | the node's name gains `parent__`; flags, filters and map keys are kept |
| Fields.AdjustedChild | field.go:53-58 | a child of a renamed node stays under its key and is renamed with the same parent, so every node of the subtree gains exactly one `parent__` |
| Fields.AdjustNameRoundTrip | field.go:53-58 | removing one `parent__` from every name of the renamed subtree gives back the original subtree, so renaming loses nothing |
| Fields.WithSubField | field.go:44-51 | the receiver becomes expanded and gains the child, renamed by `AdjustName`, under the key `receiver__child`. The child's flags are kept, and every other child is unchanged |
| Fields.Expand | field.go:66-74 | the child is stored renamed under `receiver__child`, expanded and not included; the receiver's own flags are unchanged |
| Fields.WithFilter | field.go:60-64 | the filter is appended after the existing filters; nothing else changes |
| Fields.BuildersKeepHierarchy | field.go:44-74 | every child's name extends its parent's name by `__` in any tree the builders produce |
| Fields.CollectKidsPick | field.go:38-40 | what the sub-fields contribute does not depend on the order the map yields them in |
| Fields.CollectKidsFrame | field.go:38-40 | what the sub-fields under a set of keys contribute depends only on those sub-fields |
| Fields.Compose | field.go:22-42 | serialising two parts one after the other serialises their union |
| Fields.ApplyNode | field.go:22-37 | the node's own part of apply: every key other than the two list keys ends with its earlier values followed by the node's filter values for it, in the order of the filter list (so a key the node sends nothing under is kept exactly); when no filter is sent under `fields`/`fields_to_expand`, its name goes under the list keys its flags select |
| Fields.FlagsApplied | field.go:23-28 | the two list steps put the node's name under `fields` when included and under `fields_to_expand` when expanded |
| Fields.FilterApplied | field.go:29-37 | each filter's value becomes the last value of its key, after the values it held; every other key keeps its values in order |
| Fields.FilterValueSeqCounts | field.go:29-37 | the node's filter values for a key, taken in filter order, are exactly the values counted for that key |
| Fields.UntouchedKey | field.go:29-37 | a key that a serialised part sends no filter value under keeps exactly its values, in order |
| Fields.Apply | field.go:22-42 | serialising a subtree in any map order appends every filter value of the subtree after the values its key already held, leaves every other key exactly as it was, and, when no filter is sent under `fields`/`fields_to_expand`, comma-appends the included and expanded names of the subtree, in some order, to those two keys |
| Fields.ApplyChildren | field.go:38-40 | the sub-fields, visited in any order, are serialised as the union of their subtrees: their filter values appended under their keys, and, when no filter is sent under `fields`/`fields_to_expand`, their names comma-appended to those keys |
| Fields.FilterOnListKey | field.go:22-37 | a filter value sent under `fields` after a name is a second value that the next addValue drops; sent before any name, it heads the comma list |
| Fields.ListedNamesReadBack | field.go:23-28 | when every selected name is non-empty and free of commas: starting from no parameters, a list key ends up as one comma list whose pieces are exactly the selected names with multiplicity, or is absent when none is selected |
| Requests.NormalizeEndpoint | request.go:36-39 | the endpoint ends with `/`: unchanged if it already does, otherwise one `/` is appended |
| Requests.NewRequest | request.go:35-50 | the request has the normalised endpoint, the given collection and id, and no fields or parameters |
| Requests.TrailingSlashIrrelevant | request.go:37-39 | normalising is idempotent; an endpoint with or without its trailing slash gives the same request |
| Requests.AddField | request.go:59-64 | the field is stored under its name, replacing a field of the same name; everything else is unchanged |
| Requests.AddFieldContrib | request.go:59-64 | for every query parameter, the roots after AddField contribute what they did before, less the subtree of a replaced field of the same name, plus the whole subtree of the new field |
| Requests.Expand | request.go:93-100 | the field is stored as by AddField, expanded and not included, with its sub-fields and filters kept |
| Requests.ExpandContrib | request.go:93-100 | after Expand the field's own name is sent under `fields_to_expand` and not under `fields`, and its sub-fields and filters contribute as they would otherwise |
| Requests.OrderCodes | request.go:17-22 | an ascending order leaves the name as it is, a descending one puts `-` in front, so the two never give the same `order` text |
| Requests.OrderBy | request.go:78-82 | `order` becomes the field's name, prefixed by `-` when descending; every other parameter is kept |
| Requests.OrderByLastWins | request.go:78-82 | ordering twice is the same as ordering only by the second call |
| Requests.WithFilter | request.go:84-91 | the filter's value is stored under its field-name key, replacing an earlier value for that key; everything else is unchanged |
| Requests.AddExtras | request.go:72-74 | every additional parameter is added after the values its key already holds, in any map order |
| Requests.QueryParams | request.go:66-76 | the result is the root fields serialised into an empty collection in some order, then the additional parameters added |
| Requests.ExtraOnTakenKey | request.go:72-74 | an additional parameter on a key a field filter already produced is added as one more value after the existing ones; it does not replace them |
| Requests.NoFieldsNoParams | request.go:66-76 | a request without fields or additional parameters has no query parameters |
| Requests.QueryParamsFilters | request.go:66-76 | outside the two list keys, a key's values are exactly the filter values of the whole tree for that key plus its additional parameter; the key is present exactly when one of them exists |
| Requests.QueryParamsLists | request.go:66-76 | when every listed name is non-empty and free of commas and no filter is sent under the list keys: `fields` / `fields_to_expand` hold one comma list of exactly the included / expanded names of the whole tree, followed by the additional parameter of that key if there is one; with no such names, only that additional parameter, or nothing |
| Requests.Path | request.go:138-141 | the path is endpoint, collection and `/`, followed by id and `/` only when there is an id |
| Requests.ToUrl | request.go:137-146 | the URL text is the path, followed by `?` and the encoded query only when that is non-empty |
| Requests.QueryMarkOnlyWithParams | request.go:142-145 | when endpoint, collection and id contain no `?`, the URL contains `?` if and only if the encoded query is non-empty |
| Requests.BarePathWithoutParams | request.go:137-146 | for a request without fields or additional parameters, and any encoding that is empty exactly for an empty collection, the URL text is the bare path |
| Scenarios.ChainComposes | field.go:46-58 | three nested WithSubField calls name the innermost leaf `outer__middle__inner__leaf` under the keys each level stored it with |
| Scenarios.MultipleExpansionChain | client_test.go:76-90 | the chain channel_urls, driver_urls, team_url, name yields `channel_urls__driver_urls__team_url__name` |
| Scenarios.ExpandOnlyQuery | client_test.go:66-74 | TestExpandOnly, whatever order the maps are visited in: only `fields_to_expand`, listing `driver_urls`, `nation_url` and `nation_url__eventoccurrence_urls` in some order |
| Scenarios.FieldFilterQuery | client_test.go:116-125 | TestFieldFilter, whatever order the maps are visited in: `fields` lists `year`, `name` and `self` in some order, `year__gt` is `2017`, and there is nothing else |
| Scenarios.RequestFilterQuery | client_test.go:92-100 | TestRequestFilter, whatever order the maps are visited in: `fields` lists `title` and `self` in some order, `set_type_slug` is `video`, and there is nothing else |
| Scenarios.OrderScenario | client_test.go:102-114 | TestOrder, on the request's additional parameters: `order` is `year`, and becomes `-year` after ordering again descending |
| Scenarios.OrderQuery | client_test.go:102-110 | TestOrder's first query, whatever order the maps are visited in: `fields` lists `year`, `name` and `self` in some order, `order` is `year`, and there is nothing else |
| Scenarios.OrderAgainQuery | client_test.go:112-113 | TestOrder's second query, after ordering the same request again descending: the same `fields`, `order` is `-year`, and there is nothing else |
| Scenarios.AllFieldsQuery | client_test.go:140-145 | TestAllFields: a request without fields has no parameters, and with any encoding that is empty exactly for no parameters its URL is `https://test.com/api/driver/driv_123/` |
| Scenarios.NoTrailingSlashScenario | client_test.go:58-64 | TestNoTrailingSlash: both endpoint spellings give `https://test.com/api/team/team_123/` |

## Behaviour worth knowing

- **Collisions with additional parameters.** `QueryParams` adds each additional parameter (`order`, request-level filters) with `Add`. A key that a field filter already produced therefore ends up with two values; it is not overwritten (`Requests.ExtraOnTakenKey`).
- **The Equals filter key.** A field's equality filter is sent under the field's current name. After attaching, that name is the already-qualified `parent__name`.
- **Eager renaming.** Qualification happens when a child is attached, not when the query is built. A child attached before its parent gets a parent of its own is renamed again by that later attachment.
- **Empty names.** addValue puts no comma in front of a name when the list read back is empty. An included or expanded field whose name is empty therefore vanishes when it is visited first (the next name starts the list) and leaves a trailing comma when visited later, so the list it produces depends on map order (`QueryValues.EmptyNameOrder`). A name containing a comma reads back as several pieces.

## Left out

- Execute, WithClient and WithContext (request.go:52-57, 102-134): the HTTP client, the context, the status check, `errHTTP` and the JSON decoding are I/O. The `Context` and `Client` fields of a request are not modelled.
- Requests.ToUrl: url.Values.Encode (key order, percent-encoding) and url.Parse are library code. `ToUrl` takes the encoded query as a parameter and returns the text that would be parsed. The parse error case is not modelled.
- Requests.NewRequest: the Go code indexes the last character of the endpoint and panics on an empty endpoint. The model requires a non-empty endpoint instead of modelling the panic.
- Aliasing: the builders mutate `*Field` values in place, so a field attached to two parents, or changed after it was attached, is shared. The model uses immutable values. Each attachment takes a snapshot of the child, as if every field were used once, which is how the tests use them.
- Map order: Go's map iteration order is unspecified. The model does not pick one; it proves its properties for all orders. The order of names inside a comma list is therefore stated as a multiset.
- Fields.Apply: request.go calls `apply` with a second argument (`""`, line 70), and reads or writes the lower-case fields `name` (lines 62 and 80), `isExpanded` and `isIncluded` (lines 96-97). field.go declares a one-argument `apply` and the exported fields `Name`, `IsExpanded` and `IsIncluded`. The model follows field.go and reads request.go's fields as those.
- Fields.ListedNamesReadBack: it reads a list back only when every selected name is non-empty and free of commas; with an empty name the pieces depend on map order (see "Empty names" above), and a comma in a name splits it.
- Requests.QueryParamsLists: the same guard on names as `Fields.ListedNamesReadBack`. It also reads `fields` / `fields_to_expand` back only when no filter is sent under those two keys. A field filter keyed exactly `fields` is, depending on map order, either dropped (added as a second value after a list, which the next addValue discards, since it reads and writes only the first value) or merged into the comma list (added while the key is still empty); `Fields.FilterOnListKey` shows both. `Fields.Applied` states only the filter part then.
- Fields.Apply: several filter values sent under one key are stated as a multiset when they come from more than one node; the order within one node, which follows its filter list, is stated by `Fields.ApplyNode`. Across nodes the order depends on map order, and a key shared by two nodes needs two nodes with the same name.
- Fields.ApplyChildren: the same as `Fields.Apply`; the values it appends under one key are stated as a multiset.
- Fields.BuildersKeepHierarchy: it states that names extend their parent's name; it says nothing about the map keys, which keep the name a child had when it was attached.
- Scenarios.NoTrailingSlashScenario: the encoded query of its parameter-free request is given as the empty string, not derived; `Requests.BarePathWithoutParams` and `Scenarios.AllFieldsQuery` derive the bare path from an encoding that is empty exactly for no parameters, the property the model assumes of url.Values.Encode.
- exaple_test.go and doc_test.go: usage examples only. One of them calls OrderBy with a different number of arguments than request.go declares.

=== FILE: fields.dfy ===
/** The field tree of field.go: building it, qualifying names eagerly when
    a subtree is attached, and serialising a tree into query parameters. */
module Fields {
  import opened Filters
  import opened QueryValues

  /** The selection parameter and the expansion parameter. */
  const FieldsKey: string := "fields"
  const ExpandKey: string := "fields_to_expand"

  /** A requested field. `name` is already qualified by every ancestor the
      field was attached under; `subFields` is keyed by each child's name at
      the moment it was attached (a later qualification of the parent's
      subtree renames the children but keeps those keys). */
  datatype Field = Field(
    name: string,
    isIncluded: bool,
    isExpanded: bool,
    subFields: map<string, Field>,
    filters: seq<Filter>)

  /** NewField: an included, unexpanded leaf without filters. */
  function NewField(name: string): (f: Field)
    ensures f.name == name && f.isIncluded && !f.isExpanded
    ensures f.subFields == map[] && f.filters == []
  {
    Field(name, true, false, map[], [])
  }

  /** adjustName: every node of the subtree gets `parent__` in front of its
      name. The descendants are prefixed with the same `parent`, not with the
      new name of their own parent. */
  function AdjustName(f: Field, parent: string): (r: Field)
    ensures r.name == Qualified(parent, f.name)
    ensures r.isIncluded == f.isIncluded && r.isExpanded == f.isExpanded
    ensures r.filters == f.filters && r.subFields.Keys == f.subFields.Keys
    decreases f
  {
    Field(Qualified(parent, f.name), f.isIncluded, f.isExpanded,
          map k | k in f.subFields :: AdjustName(f.subFields[k], parent),
          f.filters)
  }

  /** A sub-field of a renamed node stays under its key and is renamed
      with the same parent, so every node of the subtree gains exactly one
      `parent__`, whatever its depth. */
  lemma AdjustedChild(f: Field, parent: string, k: string)
    requires k in f.subFields
    ensures k in AdjustName(f, parent).subFields
    ensures AdjustName(f, parent).subFields[k] == AdjustName(f.subFields[k], parent)
  {
  }

  /** Qualifies `child` by the name of `f` and stores it under its new
      name, replacing any child stored under the same key. */
  function Attach(f: Field, child: Field): Field {
    f.(subFields := f.subFields[Qualified(f.name, child.name) := AdjustName(child, f.name)])
  }

  /** WithSubField: the receiver becomes expanded and gains the qualified
      child; the child's own flags are kept. */
  function WithSubField(f: Field, child: Field): (r: Field)
    ensures r.name == f.name && r.isIncluded == f.isIncluded && r.isExpanded
    ensures r.filters == f.filters
    ensures var key := Qualified(f.name, child.name);
      && r.subFields.Keys == f.subFields.Keys + {key}
      && r.subFields[key].name == key
      && r.subFields[key].isIncluded == child.isIncluded
      && r.subFields[key].isExpanded == child.isExpanded
      && r.subFields[key] == AdjustName(child, f.name)
      && (forall k :: k in f.subFields && k != key ==> r.subFields[k] == f.subFields[k])
  {
    Attach(f.(isExpanded := true), child)
  }

  /** Expand: the child is marked expanded and not included, then stored
      like a sub-field; the receiver's own flags are left alone. */
  function Expand(f: Field, child: Field): (r: Field)
    ensures r.name == f.name && r.isIncluded == f.isIncluded && r.isExpanded == f.isExpanded
    ensures r.filters == f.filters
    ensures var key := Qualified(f.name, child.name);
      && r.subFields.Keys == f.subFields.Keys + {key}
      && r.subFields[key].name == key
      && r.subFields[key].isExpanded && !r.subFields[key].isIncluded
      && r.subFields[key] == AdjustName(child.(isExpanded := true, isIncluded := false), f.name)
      && (forall k :: k in f.subFields && k != key ==> r.subFields[k] == f.subFields[k])
  {
    Attach(f, child.(isExpanded := true, isIncluded := false))
  }

  /** WithFilter: the filter goes to the end of the list; nothing else
      changes. */
  function WithFilter(f: Field, filter: Filter): (r: Field)
    ensures r.filters == f.filters + [filter]
    ensures r.(filters := f.filters) == f
  {
    f.(filters := f.filters + [filter])
  }

  /** Every child's name extends its parent's name by `__`: the shape that
      eager qualification gives a tree built by the functions above. */
  ghost predicate Hierarchical(f: Field)
    decreases f
  {
    forall k :: k in f.subFields ==>
      f.name + Separator <= f.subFields[k].name && Hierarchical(f.subFields[k])
  }

  /** Prefixing a whole subtree with the same `parent` keeps every child's
      name an extension of its parent's name. */
  lemma {:induction false} AdjustNameKeepsHierarchy(f: Field, parent: string)
    requires Hierarchical(f)
    ensures Hierarchical(AdjustName(f, parent))
    decreases f
  {
    var r := AdjustName(f, parent);
    forall k | k in r.subFields
      ensures r.name + Separator <= r.subFields[k].name && Hierarchical(r.subFields[k])
    {
      var c := f.subFields[k];
      assert r.subFields[k] == AdjustName(c, parent);
      var rest := c.name[|f.name + Separator|..];
      assert c.name == f.name + Separator + rest;
      assert r.subFields[k].name == r.name + Separator + rest;
      AdjustNameKeepsHierarchy(c, parent);
    }
  }

  /** The builders only ever produce hierarchical trees. */
  lemma BuildersKeepHierarchy(f: Field, child: Field, filter: Filter, name: string)
    requires Hierarchical(f) && Hierarchical(child)
    ensures Hierarchical(NewField(name))
    ensures Hierarchical(WithSubField(f, child))
    ensures Hierarchical(Expand(f, child))
    ensures Hierarchical(WithFilter(f, filter))
  {
    AdjustNameKeepsHierarchy(child, f.name);
    var hidden := child.(isExpanded := true, isIncluded := false);
    assert Hierarchical(hidden) by {
      assert hidden.subFields == child.subFields;
    }
    AdjustNameKeepsHierarchy(hidden, f.name);
    var w := WithFilter(f, filter);
    assert w.subFields == f.subFields && w.name == f.name;
  }

  /** Removes one leading `parent__` from every name of a subtree that
      starts with it: the inverse of AdjustName. */
  function Unadjust(f: Field, parent: string): Field
    decreases f
  {
    var prefix := parent + Separator;
    Field(if prefix <= f.name then f.name[|prefix|..] else f.name,
          f.isIncluded, f.isExpanded,
          map k | k in f.subFields :: Unadjust(f.subFields[k], parent),
          f.filters)
  }

  /** AdjustName adds exactly one `parent__` to each name and changes
      nothing else: removing it again gives back the original subtree. */
  lemma {:induction false} AdjustNameRoundTrip(f: Field, parent: string)
    ensures Unadjust(AdjustName(f, parent), parent) == f
    decreases f
  {
    var a := AdjustName(f, parent);
    var u := Unadjust(a, parent);
    forall k | k in f.subFields
      ensures u.subFields[k] == f.subFields[k]
    {
      assert a.subFields[k] == AdjustName(f.subFields[k], parent);
      AdjustNameRoundTrip(f.subFields[k], parent);
    }
    assert u.subFields == f.subFields;
    assert (parent + Separator) <= a.name;
    assert u.name == f.name;
  }

  // ---------------------------------------------------------------------
  // What a tree contributes to the query parameters.

  /** What is collected from the nodes of a tree. */
  datatype Probe =
    | IncludedNames                   // names listed in `fields`
    | ExpandedNames                   // names listed in `fields_to_expand`
    | FilterValuesAt(key: string)     // values of filters sent under `key`
    | FilterKeys                      // every key some filter is sent under

  /** The values of the filters `fs` of a node called `name` that are sent
      under `key`. */
  function FilterValues(name: string, fs: seq<Filter>, key: string): multiset<string>
    decreases |fs|
  {
    if fs == [] then multiset{}
    else
      var last := fs[|fs| - 1];
      FilterValues(name, fs[..|fs| - 1], key)
        + (if FilterKey(name, last) == key then multiset{last.value} else multiset{})
  }

  /** The values of the filters `fs` of a node called `name` that are sent
      under `key`, in the order of the filter list. */
  function FilterValueSeq(name: string, fs: seq<Filter>, key: string): seq<string>
    decreases |fs|
  {
    if fs == [] then []
    else
      var last := fs[|fs| - 1];
      FilterValueSeq(name, fs[..|fs| - 1], key) + (if FilterKey(name, last) == key then [last.value] else [])
  }

  /** The ordered values hold exactly the values `FilterValues` counts. */
  lemma {:induction false} FilterValueSeqCounts(name: string, fs: seq<Filter>, key: string)
    ensures multiset(FilterValueSeq(name, fs, key)) == FilterValues(name, fs, key)
    decreases |fs|
  {
    if fs != [] {
      FilterValueSeqCounts(name, fs[..|fs| - 1], key);
    }
  }

  /** The keys the filters `fs` of a node called `name` are sent under. */
  function FilterKeysOf(name: string, fs: seq<Filter>): multiset<string>
    decreases |fs|
  {
    if fs == [] then multiset{}
    else FilterKeysOf(name, fs[..|fs| - 1]) + multiset{FilterKey(name, fs[|fs| - 1])}
  }

  /** What one node contributes by itself, ignoring its sub-fields. */
  function Local(f: Field, p: Probe): multiset<string> {
    match p
    case IncludedNames => if f.isIncluded then multiset{f.name} else multiset{}
    case ExpandedNames => if f.isExpanded then multiset{f.name} else multiset{}
    case FilterValuesAt(key) => FilterValues(f.name, f.filters, key)
    case FilterKeys => FilterKeysOf(f.name, f.filters)
  }

  /** What a whole subtree contributes, whatever order its maps are
      visited in. */
  ghost function Collect(f: Field, p: Probe): multiset<string>
    decreases f, 1
  {
    Local(f, p) + CollectKids(f, f.subFields.Keys, p)
  }

  /** What the sub-fields of `f` stored under `keys` contribute. */
  ghost function CollectKids(f: Field, keys: set<string>, p: Probe): multiset<string>
    requires keys <= f.subFields.Keys
    decreases f, 0, keys
  {
    if keys == {} then multiset{}
    else
      var k :| k in keys;
      Collect(f.subFields[k], p) + CollectKids(f, keys - {k}, p)
  }

  /** Any sub-field may be taken first: the contribution of a set of
      children does not depend on the order they are visited in. */
  lemma {:induction false} CollectKidsPick(f: Field, keys: set<string>, p: Probe, k: string)
    requires k in keys && keys <= f.subFields.Keys
    ensures CollectKids(f, keys, p) == Collect(f.subFields[k], p) + CollectKids(f, keys - {k}, p)
    decreases keys
  {
    var j :| j in keys && CollectKids(f, keys, p) == Collect(f.subFields[j], p) + CollectKids(f, keys - {j}, p);
    if j != k {
      var rest := keys - {j} - {k};
      assert keys - {k} - {j} == rest;
      CollectKidsPick(f, keys - {j}, p, k);
      CollectKidsPick(f, keys - {k}, p, j);
    }
  }

  /** What the sub-fields under `keys` contribute depends only on those
      sub-fields: two nodes that agree on them contribute the same. */
  lemma {:induction false} CollectKidsFrame(f: Field, g: Field, keys: set<string>, p: Probe)
    requires keys <= f.subFields.Keys && keys <= g.subFields.Keys
    requires forall k :: k in keys ==> f.subFields[k] == g.subFields[k]
    ensures CollectKids(f, keys, p) == CollectKids(g, keys, p)
    decreases keys
  {
    if keys != {} {
      var k :| k in keys;
      CollectKidsPick(f, keys, p, k);
      CollectKidsPick(g, keys, p, k);
      CollectKidsFrame(f, g, keys - {k}, p);
    }
  }

  /** The parts of a tree that are serialised one after another. */
  datatype Part =
    | Node(f: Field)                           // the node alone
    | Tree(f: Field)                           // the node and all its descendants
    | Children(f: Field, keys: set<string>)    // the sub-fields under `keys`

  ghost predicate ValidPart(part: Part) {
    part.Children? ==> part.keys <= part.f.subFields.Keys
  }

  ghost function Contrib(part: Part, p: Probe): multiset<string>
    requires ValidPart(part)
  {
    match part
    case Node(f) => Local(f, p)
    case Tree(f) => Collect(f, p)
    case Children(f, keys) => CollectKids(f, keys, p)
  }

  /** No filter of the part is sent under one of the two list keys (such a
      filter would be mixed into the comma list). */
  ghost predicate KeepsLists(part: Part)
    requires ValidPart(part)
  {
    FieldsKey !in Contrib(part, FilterKeys) && ExpandKey !in Contrib(part, FilterKeys)
  }

  /** The comma list under `key` went from `v` to `r` by adding `ws`, one
      addValue each; with nothing to add, the key is untouched. */
  ghost predicate ListAfter(v: Values, r: Values, key: string, ws: seq<string>) {
    if ws == [] then (key in r <==> key in v) && Lookup(r, key) == Lookup(v, key)
    else Lookup(r, key) == [AppendAll(Get(v, key), ws)]
  }

  /** Every filter value of `part` is added under its key, after the
      values the key already held (which stay as they were, in order); a
      key that gains nothing is unchanged. The two list keys are left to
      `Listed`. */
  ghost predicate FiltersAdded(v: Values, r: Values, part: Part)
    requires ValidPart(part)
  {
    forall k :: k != FieldsKey && k != ExpandKey ==>
      && Lookup(v, k) <= Lookup(r, k)
      && multiset(Lookup(r, k)[|Lookup(v, k)|..]) == Contrib(part, FilterValuesAt(k))
      && (k in r <==> k in v || Contrib(part, FilterValuesAt(k)) != multiset{})
  }

  /** The names of `part` that `names` selects are comma-appended to the
      list under `key`, in some order. */
  ghost predicate Listed(v: Values, r: Values, part: Part, names: Probe, key: string)
    requires ValidPart(part)
  {
    exists ws :: multiset(ws) == Contrib(part, names) && ListAfter(v, r, key, ws)
  }

  /** `r` is `v` with `part` serialised into it: every filter value is
      added under its key, no other key is touched, and (when no filter is
      sent under a list key) the names to include and to expand are
      comma-appended in some order. */
  ghost predicate Applied(v: Values, r: Values, part: Part)
    requires ValidPart(part)
  {
    && FiltersAdded(v, r, part)
    && (KeepsLists(part) ==>
          Listed(v, r, part, IncludedNames, FieldsKey) && Listed(v, r, part, ExpandedNames, ExpandKey))
  }

  lemma ListAfterConcat(v: Values, w: Values, r: Values, key: string, a: seq<string>, b: seq<string>)
    requires ListAfter(v, w, key, a) && ListAfter(w, r, key, b)
    ensures ListAfter(v, r, key, a + b)
  {
    if a == [] {
      assert a + b == b;
      assert Get(w, key) == Get(v, key);
    } else if b == [] {
      assert a + b == a;
    } else {
      assert Get(w, key) == AppendAll(Get(v, key), a);
      AppendAllConcat(Get(v, key), a, b);
    }
  }

  lemma ComposeFilters(v: Values, w: Values, r: Values, a: Part, b: Part, c: Part)
    requires ValidPart(a) && ValidPart(b) && ValidPart(c)
    requires forall k :: Contrib(c, FilterValuesAt(k)) == Contrib(a, FilterValuesAt(k)) + Contrib(b, FilterValuesAt(k))
    requires FiltersAdded(v, w, a) && FiltersAdded(w, r, b)
    ensures FiltersAdded(v, r, c)
  {
    forall k | k != FieldsKey && k != ExpandKey
      ensures Lookup(v, k) <= Lookup(r, k)
      ensures multiset(Lookup(r, k)[|Lookup(v, k)|..]) == Contrib(c, FilterValuesAt(k))
    {
      SuffixesAdd(Lookup(v, k), Lookup(w, k), Lookup(r, k));
    }
  }

  /** A key the part sends no filter value under keeps exactly its
      values, in order. */
  lemma UntouchedKey(v: Values, r: Values, part: Part, k: string)
    requires ValidPart(part) && FiltersAdded(v, r, part)
    requires k != FieldsKey && k != ExpandKey && Contrib(part, FilterValuesAt(k)) == multiset{}
    ensures Lookup(r, k) == Lookup(v, k) && (k in r <==> k in v)
  {
  }

  /** Values appended in two steps are the values appended by the first
      step followed by those appended by the second. */
  lemma SuffixesAdd(x: seq<string>, y: seq<string>, z: seq<string>)
    requires x <= y && y <= z
    ensures x <= z
    ensures multiset(z[|x|..]) == multiset(y[|x|..]) + multiset(z[|y|..])
  {
    assert z[|x|..] == y[|x|..] + z[|y|..];
  }

  lemma ComposeListed(v: Values, w: Values, r: Values, a: Part, b: Part, c: Part, names: Probe, key: string)
    requires ValidPart(a) && ValidPart(b) && ValidPart(c)
    requires Contrib(c, names) == Contrib(a, names) + Contrib(b, names)
    requires Listed(v, w, a, names, key) && Listed(w, r, b, names, key)
    ensures Listed(v, r, c, names, key)
  {
    var ws1 :| multiset(ws1) == Contrib(a, names) && ListAfter(v, w, key, ws1);
    var ws2 :| multiset(ws2) == Contrib(b, names) && ListAfter(w, r, key, ws2);
    ListAfterConcat(v, w, r, key, ws1, ws2);
    ListedBy(v, r, c, names, key, ws1 + ws2);
  }

  /** A witness list for `Listed`. */
  lemma ListedBy(v: Values, r: Values, part: Part, names: Probe, key: string, ws: seq<string>)
    requires ValidPart(part)
    requires multiset(ws) == Contrib(part, names) && ListAfter(v, r, key, ws)
    ensures Listed(v, r, part, names, key)
  {
  }

  /** Serialising `a` and then `b` serialises any part that contributes
      exactly what `a` and `b` contribute together. */
  lemma Compose(v: Values, w: Values, r: Values, a: Part, b: Part, c: Part)
    requires ValidPart(a) && ValidPart(b) && ValidPart(c)
    requires forall p :: Contrib(c, p) == Contrib(a, p) + Contrib(b, p)
    requires Applied(v, w, a) && Applied(w, r, b)
    ensures Applied(v, r, c)
  {
    ComposeFilters(v, w, r, a, b, c);
    if KeepsLists(c) {
      assert Contrib(c, FilterKeys) == Contrib(a, FilterKeys) + Contrib(b, FilterKeys);
      ComposeListed(v, w, r, a, b, c, IncludedNames, FieldsKey);
      ComposeListed(v, w, r, a, b, c, ExpandedNames, ExpandKey);
    }
  }

  /** A part that contributes nothing leaves the parameters as they are. */
  lemma Unchanged(v: Values, part: Part)
    requires ValidPart(part)
    requires forall p :: Contrib(part, p) == multiset{}
    ensures Applied(v, v, part)
  {
    var none: seq<string> := [];
    assert multiset(none) == Contrib(part, IncludedNames) && ListAfter(v, v, FieldsKey, none);
    assert multiset(none) == Contrib(part, ExpandedNames) && ListAfter(v, v, ExpandKey, none);
    forall k | k != FieldsKey && k != ExpandKey
      ensures Contrib(part, FilterValuesAt(k)) == multiset{}
    {
    }
  }

  /** A node with the given flags and no filters or sub-fields. */
  function Flags(name: string, included: bool, expanded: bool): Field {
    Field(name, included, expanded, map[], [])
  }

  /** One addValue of `name` to a list key: the list grows by `name`, the
      other list key and every other key stay as they were. */
  lemma AddValueStep(v: Values, key: string, name: string, included: bool, expanded: bool)
    requires key == FieldsKey || key == ExpandKey
    ensures FiltersAdded(v, AddValue(v, key, name), Node(Flags(name, included, expanded)))
    ensures ListAfter(v, AddValue(v, key, name), key, [name])
    ensures key == FieldsKey ==> ListAfter(v, AddValue(v, key, name), ExpandKey, [])
    ensures key == ExpandKey ==> ListAfter(v, AddValue(v, key, name), FieldsKey, [])
  {
    var r := AddValue(v, key, name);
    forall k | k != FieldsKey && k != ExpandKey
      ensures Lookup(r, k) == Lookup(v, k) && (k in r <==> k in v)
      ensures Contrib(Node(Flags(name, included, expanded)), FilterValuesAt(k)) == multiset{}
    {
    }
  }

  /** The `fields` step of apply for a node that is, or is not, included. */
  lemma SelectStep(v: Values, name: string, included: bool)
    ensures Applied(v, if included then AddValue(v, FieldsKey, name) else v, Node(Flags(name, included, false)))
  {
    var part := Node(Flags(name, included, false));
    var none: seq<string> := [];
    assert Contrib(part, FilterKeys) == multiset{};
    assert Contrib(part, ExpandedNames) == multiset(none);
    if included {
      var r := AddValue(v, FieldsKey, name);
      AddValueStep(v, FieldsKey, name, included, false);
      assert Contrib(part, IncludedNames) == multiset([name]);
      assert Listed(v, r, part, IncludedNames, FieldsKey);
      assert Listed(v, r, part, ExpandedNames, ExpandKey);
    } else {
      Unchanged(v, part);
    }
  }

  /** The `fields_to_expand` step of apply for a node that is, or is not,
      expanded. */
  lemma ExpandStep(v: Values, name: string, expanded: bool)
    ensures Applied(v, if expanded then AddValue(v, ExpandKey, name) else v, Node(Flags(name, false, expanded)))
  {
    var part := Node(Flags(name, false, expanded));
    var none: seq<string> := [];
    assert Contrib(part, FilterKeys) == multiset{};
    assert Contrib(part, IncludedNames) == multiset(none);
    if expanded {
      var r := AddValue(v, ExpandKey, name);
      AddValueStep(v, ExpandKey, name, false, expanded);
      assert Contrib(part, ExpandedNames) == multiset([name]);
      assert Listed(v, r, part, IncludedNames, FieldsKey);
      assert Listed(v, r, part, ExpandedNames, ExpandKey);
    } else {
      Unchanged(v, part);
    }
  }

  /** A node without filters contributes what its two flags do. */
  lemma FlagsSplit(f: Field)
    ensures forall p :: (Contrib(Node(f.(filters := [])), p)
      == Contrib(Node(Flags(f.name, f.isIncluded, false)), p) + Contrib(Node(Flags(f.name, false, f.isExpanded)), p))
  {
    forall p
      ensures Contrib(Node(f.(filters := [])), p)
        == Contrib(Node(Flags(f.name, f.isIncluded, false)), p) + Contrib(Node(Flags(f.name, false, f.isExpanded)), p)
    {
    }
  }

  /** A node that carries just `filter`. */
  function FilterOnly(name: string, filter: Filter): Field {
    Field(name, false, false, map[], [filter])
  }

  /** What a node carrying only `filter` contributes. */
  lemma FilterOnlyContrib(name: string, filter: Filter)
    ensures Contrib(Node(FilterOnly(name, filter)), FilterKeys) == multiset{FilterKey(name, filter)}
    ensures forall k :: (Contrib(Node(FilterOnly(name, filter)), FilterValuesAt(k))
      == (if FilterKey(name, filter) == k then multiset{filter.value} else multiset{}))
    ensures Contrib(Node(FilterOnly(name, filter)), IncludedNames) == multiset{}
    ensures Contrib(Node(FilterOnly(name, filter)), ExpandedNames) == multiset{}
  {
    var fs := [filter];
    assert fs[..0] == [] && fs[0] == filter;
    assert FilterKeysOf(name, fs) == FilterKeysOf(name, fs[..0]) + multiset{FilterKey(name, filter)};
    forall k
      ensures FilterValues(name, fs, k) == (if FilterKey(name, filter) == k then multiset{filter.value} else multiset{})
    {
      assert FilterValues(name, fs, k) == FilterValues(name, fs[..0], k)
        + (if FilterKey(name, filter) == k then multiset{filter.value} else multiset{});
    }
  }

  /** One Add of a filter value: the value joins the list of its key. */
  lemma AddApplied(v: Values, name: string, filter: Filter)
    ensures Applied(v, Add(v, FilterKey(name, filter), filter.value), Node(FilterOnly(name, filter)))
  {
    var key := FilterKey(name, filter);
    var r := Add(v, key, filter.value);
    var part := Node(FilterOnly(name, filter));
    FilterOnlyContrib(name, filter);
    if KeepsLists(part) {
      var none: seq<string> := [];
      assert multiset(none) == Contrib(part, IncludedNames) && ListAfter(v, r, FieldsKey, none);
      assert multiset(none) == Contrib(part, ExpandedNames) && ListAfter(v, r, ExpandKey, none);
    }
  }

  /** The filter values of the first i + 1 filters under `key`: those of
      the first i, and the value of filter i when it is sent there. */
  lemma FilterValuesPrefix(name: string, fs: seq<Filter>, i: nat, key: string)
    requires i < |fs|
    ensures FilterValues(name, fs[..i + 1], key) == FilterValues(name, fs[..i], key)
      + (if FilterKey(name, fs[i]) == key then multiset{fs[i].value} else multiset{})
  {
    assert fs[..i + 1][..i] == fs[..i];
  }

  /** The ordered values of the first i + 1 filters under `key`: those of
      the first i, then the value of filter i when it is sent there. */
  lemma FilterValueSeqPrefix(name: string, fs: seq<Filter>, i: nat, key: string)
    requires i < |fs|
    ensures FilterValueSeq(name, fs[..i + 1], key) == FilterValueSeq(name, fs[..i], key)
      + (if FilterKey(name, fs[i]) == key then [fs[i].value] else [])
  {
    assert fs[..i + 1][..i] == fs[..i];
  }

  /** One more filter of the loop of apply: the key of filter i gains its
      value at the end, and every other key stays as it was, so each key
      holds its earlier values followed by the node's values for it in
      filter order. */
  lemma FilterOrderStep(f: Field, v: Values, w: Values, i: nat)
    requires i < |f.filters|
    requires forall k :: k != FieldsKey && k != ExpandKey ==>
      Lookup(w, k) == Lookup(v, k) + FilterValueSeq(f.name, f.filters[..i], k)
    ensures var w' := Add(w, FilterKey(f.name, f.filters[i]), f.filters[i].value);
      forall k :: k != FieldsKey && k != ExpandKey ==>
        Lookup(w', k) == Lookup(v, k) + FilterValueSeq(f.name, f.filters[..i + 1], k)
  {
    var w' := Add(w, FilterKey(f.name, f.filters[i]), f.filters[i].value);
    forall k | k != FieldsKey && k != ExpandKey
      ensures Lookup(w', k) == Lookup(v, k) + FilterValueSeq(f.name, f.filters[..i + 1], k)
    {
      FilterValueSeqPrefix(f.name, f.filters, i, k);
    }
  }

  /** The filter keys of the first i + 1 filters: those of the first i,
      and the key of filter i. */
  lemma FilterKeysPrefix(name: string, fs: seq<Filter>, i: nat)
    requires i < |fs|
    ensures FilterKeysOf(name, fs[..i + 1]) == FilterKeysOf(name, fs[..i]) + multiset{FilterKey(name, fs[i])}
  {
    assert fs[..i + 1][..i] == fs[..i];
  }

  /** The first i + 1 filters of a node contribute what the first i do and
      what filter i does alone, for one probe. */
  lemma FilterPrefixSplitsAt(f: Field, i: nat, p: Probe)
    requires i < |f.filters|
    ensures Local(f.(filters := f.filters[..i + 1]), p)
      == Local(f.(filters := f.filters[..i]), p) + Local(FilterOnly(f.name, f.filters[i]), p)
  {
    FilterOnlyContrib(f.name, f.filters[i]);
    match p
    case FilterValuesAt(key) => FilterValuesPrefix(f.name, f.filters, i, key);
    case FilterKeys => FilterKeysPrefix(f.name, f.filters, i);
    case _ =>
  }

  /** The same, for every probe. */
  lemma FilterPrefixSplits(f: Field, i: nat)
    requires i < |f.filters|
    ensures forall p :: (Contrib(Node(f.(filters := f.filters[..i + 1])), p)
      == Contrib(Node(f.(filters := f.filters[..i])), p) + Contrib(Node(FilterOnly(f.name, f.filters[i])), p))
  {
    forall p
      ensures Contrib(Node(f.(filters := f.filters[..i + 1])), p)
        == Contrib(Node(f.(filters := f.filters[..i])), p) + Contrib(Node(FilterOnly(f.name, f.filters[i])), p)
    {
      FilterPrefixSplitsAt(f, i, p);
    }
  }

  /** Adding one more child to the visited ones adds its subtree. */
  lemma ChildrenGrow(f: Field, done: set<string>, k: string)
    requires done <= f.subFields.Keys && k in f.subFields && k !in done
    ensures forall p :: (Contrib(Children(f, done + {k}), p)
      == Contrib(Children(f, done), p) + Contrib(Tree(f.subFields[k]), p))
  {
    forall p
      ensures Contrib(Children(f, done + {k}), p)
        == Contrib(Children(f, done), p) + Contrib(Tree(f.subFields[k]), p)
    {
      CollectKidsPick(f, done + {k}, p, k);
      assert done + {k} - {k} == done;
    }
  }

  /** What becomes of a filter value sent under a list key, which is why
      `Applied` states the lists only when no filter is: added after the
      list, it is a second value that the next addValue drops, since it
      reads and writes only the first value; added before any name, it
      heads the comma list. */
  lemma FilterOnListKey()
    ensures Lookup(AddValue(Add(map[FieldsKey := ["a"]], FieldsKey, "x"), FieldsKey, "b"), FieldsKey) == ["a,b"]
    ensures Lookup(AddValue(Add(map[], FieldsKey, "x"), FieldsKey, "b"), FieldsKey) == ["x,b"]
  {
    var after := Add(map[FieldsKey := ["a"]], FieldsKey, "x");
    assert after[FieldsKey] == ["a", "x"];
    assert AddValue(after, FieldsKey, "b")[FieldsKey] == ["a" + "," + "b"];
    assert "a" + "," + "b" == "a,b";
    var first := Add(map[], FieldsKey, "x");
    assert first[FieldsKey] == ["x"];
    assert AddValue(first, FieldsKey, "b")[FieldsKey] == ["x" + "," + "b"];
    assert "x" + "," + "b" == "x,b";
  }

  /** A list key read back the way the tests read it. Starting from no
      parameters, when every selected name is non-empty and free of commas,
      the key holds one comma list whose pieces are exactly the selected
      names, with their multiplicities, in some order; with no selected
      name the key is absent. */
  lemma ListedNamesReadBack(r: Values, part: Part, names: Probe, key: string)
    requires ValidPart(part)
    requires Listed(map[], r, part, names, key)
    requires forall x :: x in Contrib(part, names) ==> x != "" && ',' !in x
    ensures Contrib(part, names) == multiset{} ==> key !in r
    ensures Contrib(part, names) != multiset{} ==>
      key in r && |r[key]| == 1 && multiset(CommaSplit(r[key][0])) == Contrib(part, names)
  {
    var ws :| multiset(ws) == Contrib(part, names) && ListAfter(map[], r, key, ws);
    if ws != [] {
      forall i | 0 <= i < |ws|
        ensures ws[i] != "" && ',' !in ws[i]
      {
        assert ws[i] in multiset(ws);
      }
      AppendAllJoins(ws);
      SplitJoin(ws);
    }
  }

  /** The two list steps of apply for one node. */
  lemma FlagsApplied(f: Field, v: Values, selected: Values, w: Values)
    requires selected == if f.isIncluded then AddValue(v, FieldsKey, f.name) else v
    requires w == if f.isExpanded then AddValue(selected, ExpandKey, f.name) else selected
    ensures Applied(v, w, Node(f.(filters := [])))
  {
    SelectStep(v, f.name, f.isIncluded);
    ExpandStep(selected, f.name, f.isExpanded);
    FlagsSplit(f);
    Compose(v, selected, w, Node(Flags(f.name, f.isIncluded, false)), Node(Flags(f.name, false, f.isExpanded)),
            Node(f.(filters := [])));
  }

  /** The filter loop of apply, one filter further. */
  lemma FilterApplied(f: Field, v: Values, w: Values, i: nat)
    requires i < |f.filters|
    requires Applied(v, w, Node(f.(filters := f.filters[..i])))
    ensures Applied(v, Add(w, FilterKey(f.name, f.filters[i]), f.filters[i].value),
                    Node(f.(filters := f.filters[..i + 1])))
    ensures var key := FilterKey(f.name, f.filters[i]);
      Lookup(Add(w, key, f.filters[i].value), key) == Lookup(w, key) + [f.filters[i].value]
  {
    var filter := f.filters[i];
    AddApplied(w, f.name, filter);
    FilterPrefixSplits(f, i);
    Compose(v, w, Add(w, FilterKey(f.name, filter), filter.value),
            Node(f.(filters := f.filters[..i])), Node(FilterOnly(f.name, filter)),
            Node(f.(filters := f.filters[..i + 1])));
  }

  /** A tree is its root node followed by all its sub-fields. */
  lemma TreeApplied(f: Field, v: Values, w: Values, r: Values)
    requires Applied(v, w, Node(f)) && Applied(w, r, Children(f, f.subFields.Keys))
    ensures Applied(v, r, Tree(f))
  {
    Compose(v, w, r, Node(f), Children(f, f.subFields.Keys), Tree(f));
  }

  /** The part of apply (field.go) that concerns the node itself: its name
      goes under `fields` and/or `fields_to_expand`, then each filter adds
      one parameter. */
  method ApplyNode(f: Field, v: Values) returns (w: Values)
    ensures Applied(v, w, Node(f))
    ensures forall k :: k != FieldsKey && k != ExpandKey ==>
      Lookup(w, k) == Lookup(v, k) + FilterValueSeq(f.name, f.filters, k)
  {
    w := v;
    if f.isIncluded {
      w := AddValue(w, FieldsKey, f.name);
    }
    ghost var selected := w;
    if f.isExpanded {
      w := AddValue(w, ExpandKey, f.name);
    }
    FlagsApplied(f, v, selected, w);
    assert f.filters[..0] == [];
    var i := 0;
    while i < |f.filters|
      invariant 0 <= i <= |f.filters|
      invariant Applied(v, w, Node(f.(filters := f.filters[..i])))
      invariant forall k :: k != FieldsKey && k != ExpandKey ==>
        Lookup(w, k) == Lookup(v, k) + FilterValueSeq(f.name, f.filters[..i], k)
    {
      var filter := f.filters[i];
      FilterApplied(f, v, w, i);
      FilterOrderStep(f, v, w, i);
      w := Add(w, FilterKey(f.name, filter), filter.value);
      i := i + 1;
    }
    assert f.filters[..i] == f.filters;
  }

  /** apply (field.go): the node itself, then its sub-fields in whatever
      order the map yields them. */
  method Apply(f: Field, v: Values) returns (r: Values)
    ensures Applied(v, r, Tree(f))
    decreases f, 1
  {
    var w := ApplyNode(f, v);
    r := ApplyChildren(f, w);
    TreeApplied(f, v, w, r);
  }

  /** The loop of apply over the sub-fields of `f`, visiting the keys in an
      arbitrary order as Go's map iteration does. */
  method ApplyChildren(f: Field, v: Values) returns (r: Values)
    ensures Applied(v, r, Children(f, f.subFields.Keys))
    decreases f, 0
  {
    r := v;
    var todo := f.subFields.Keys;
    ghost var done: set<string> := {};
    Unchanged(v, Children(f, {}));
    while todo != {}
      invariant todo + done == f.subFields.Keys && todo !! done
      invariant Applied(v, r, Children(f, done))
      decreases todo
    {
      var k :| k in todo;
      var r' := Apply(f.subFields[k], r);
      ChildrenGrow(f, done, k);
      Compose(v, r, r', Children(f, done), Tree(f.subFields[k]), Children(f, done + {k}));
      r := r';
      todo := todo - {k};
      done := done + {k};
    }
  }
}

=== FILE: filters.dfy ===
/** Filters (filter.go) and the parameter-key naming they share with
    field.go and request.go: a qualified name or a filter key is built by
    joining two parts with a double underscore. */
module Filters {

  /** The separator between a parent's name and a child's name, and between
      a name and a constraint code. */
  const Separator: string := "__"

  /** `Qualified(parent, name)` is the `%s__%s` formatting used by
      adjustName and by the filter keys. */
  function Qualified(parent: string, name: string): string {
    parent + Separator + name
  }

  /** A constraint is a named string type in the source; its value is the
      code that is appended to a parameter key. */
  datatype Constraint = Constraint(code: string)

  const GreaterThan: Constraint := Constraint("gt")
  const LessThan: Constraint := Constraint("lt")
  /** Equals has the empty code, so its key carries no suffix. */
  const Equals: Constraint := Constraint("")

  /** A filter pairs a constraint with the value it compares against. */
  datatype Filter = Filter(c: Constraint, value: string)

  function NewFilter(c: Constraint, value: string): (r: Filter)
    ensures r.c == c && r.value == value
  {
    Filter(c, value)
  }

  /** The query-parameter key a filter on `name` is sent under: the name
      itself for Equals, `name__code` for every other constraint. */
  function FilterKey(name: string, filter: Filter): (key: string)
    ensures filter.c == Equals ==> key == name
    ensures filter.c != Equals ==> key == Qualified(name, filter.c.code)
  {
    if filter.c != Equals then Qualified(name, filter.c.code) else name
  }

  /** The three constraint codes are "gt", "lt" and "", all different. */
  lemma ConstraintCodes()
    ensures GreaterThan.code == "gt" && LessThan.code == "lt" && Equals.code == ""
    ensures GreaterThan != LessThan && GreaterThan != Equals && LessThan != Equals
  {
  }

  /** On one field name, two filters share a parameter key exactly when
      they have the same constraint: an Equals key is never a suffixed key,
      and a suffixed key determines its code. */
  lemma FilterKeyDeterminesConstraint(name: string, a: Filter, b: Filter)
    ensures FilterKey(name, a) == FilterKey(name, b) <==> a.c == b.c
  {
    if FilterKey(name, a) == FilterKey(name, b) {
      var ka, kb := FilterKey(name, a), FilterKey(name, b);
      if a.c != Equals && b.c != Equals {
        assert a.c.code == ka[|name| + |Separator|..] == kb[|name| + |Separator|..] == b.c.code;
      }
    }
  }

  /** A greater-than filter on "year" is sent as "year__gt". */
  lemma GreaterThanKeyExample()
    ensures FilterKey("year", NewFilter(GreaterThan, "2017")) == "year__gt"
  {
  }
}

=== FILE: requests.dfy ===
/** The request builder of request.go: normalising the endpoint, collecting
    root fields and additional parameters, computing the query parameters
    and assembling the URL text. */
module Requests {
  import opened Filters
  import opened QueryValues
  import opened Fields

  /** A sort order is a named string type in the source; its value is put
      in front of the field name. */
  datatype Order = Order(code: string)

  const Ascending: Order := Order("")
  const Descending: Order := Order("-")

  /** An ascending order leaves the name as it is, a descending one puts
      `-` in front of it, so the two orders never give the same text. */
  lemma OrderCodes(name: string)
    ensures Ascending.code + name == name && Descending.code + name == "-" + name
    ensures Ascending.code + name != Descending.code + name
  {
    assert |Descending.code + name| == |name| + 1;
  }

  /** The parameter OrderBy writes. */
  const OrderKey: string := "order"

  /** A request: where to send it, the root fields by name, and parameters
      not derived from a field. The context and HTTP client are not
      modelled. */
  datatype Request = Request(
    endpoint: string,
    collection: string,
    id: string,
    fields: map<string, Field>,
    additionalFields: map<string, string>)

  /** The endpoint with exactly one `/` appended when it does not already
      end in one. */
  function NormalizeEndpoint(endpoint: string): (r: string)
    requires |endpoint| > 0
    ensures |r| > 0 && r[|r| - 1] == '/'
    ensures endpoint[|endpoint| - 1] == '/' ==> r == endpoint
    ensures endpoint[|endpoint| - 1] != '/' ==> r == endpoint + "/"
  {
    if endpoint[|endpoint| - 1] != '/' then endpoint + "/" else endpoint
  }

  /** NewRequest: the source indexes the last character of the endpoint,
      so the endpoint must not be empty. */
  function NewRequest(endpoint: string, collection: string, id: string): (r: Request)
    requires |endpoint| > 0
    ensures r.endpoint == NormalizeEndpoint(endpoint)
    ensures r.collection == collection && r.id == id
    ensures r.fields == map[] && r.additionalFields == map[]
  {
    Request(NormalizeEndpoint(endpoint), collection, id, map[], map[])
  }

  /** Normalising twice is normalising once, and an endpoint with or without
      its trailing slash gives the same request. */
  lemma TrailingSlashIrrelevant(endpoint: string, collection: string, id: string)
    requires |endpoint| > 0
    ensures NormalizeEndpoint(NormalizeEndpoint(endpoint)) == NormalizeEndpoint(endpoint)
    ensures endpoint[|endpoint| - 1] != '/' ==>
      NewRequest(endpoint, collection, id) == NewRequest(endpoint + "/", collection, id)
  {
    if endpoint[|endpoint| - 1] != '/' {
      var e' := endpoint + "/";
      assert e'[|e'| - 1] == '/';
    }
  }

  /** AddField: the field is stored under its name, replacing any root
      field of that name; nothing else changes. */
  function AddField(r: Request, f: Field): (r': Request)
    ensures r'.fields.Keys == r.fields.Keys + {f.name} && r'.fields[f.name] == f
    ensures forall n :: n in r.fields && n != f.name ==> r'.fields[n] == r.fields[n]
    ensures r'.(fields := r.fields) == r
  {
    r.(fields := r.fields[f.name := f])
  }

  /** Expand: the field is marked expanded and not included, then added
      like AddField. */
  function Expand(r: Request, f: Field): (r': Request)
    ensures r' == AddField(r, f.(isExpanded := true, isIncluded := false))
    ensures f.name in r'.fields && r'.fields[f.name].isExpanded && !r'.fields[f.name].isIncluded
    ensures r'.fields[f.name].subFields == f.subFields && r'.fields[f.name].filters == f.filters
  {
    AddField(r, f.(isExpanded := true, isIncluded := false))
  }

  /** OrderBy: the `order` parameter becomes the field's name, prefixed by
      "-" for a descending order; nothing else changes. */
  function OrderBy(r: Request, f: Field, order: Order): (r': Request)
    ensures r'.additionalFields.Keys == r.additionalFields.Keys + {OrderKey}
    ensures order == Ascending ==> r'.additionalFields[OrderKey] == f.name
    ensures order == Descending ==> r'.additionalFields[OrderKey] == "-" + f.name
    ensures forall k :: k in r.additionalFields && k != OrderKey ==>
      r'.additionalFields[k] == r.additionalFields[k]
    ensures r'.(additionalFields := r.additionalFields) == r
  {
    r.(additionalFields := r.additionalFields[OrderKey := order.code + f.name])
  }

  /** Only the last OrderBy counts. */
  lemma OrderByLastWins(r: Request, f: Field, g: Field, first: Order, second: Order)
    ensures OrderBy(OrderBy(r, f, first), g, second) == OrderBy(r, g, second)
  {
    var a := OrderBy(OrderBy(r, f, first), g, second).additionalFields;
    var b := OrderBy(r, g, second).additionalFields;
    assert a.Keys == b.Keys;
  }

  /** WithFilter: the filter value becomes the parameter under the key a
      filter on a field of that name would use; nothing else changes. */
  function WithFilter(r: Request, fieldName: string, filter: Filter): (r': Request)
    ensures var key := FilterKey(fieldName, filter);
      && r'.additionalFields.Keys == r.additionalFields.Keys + {key}
      && r'.additionalFields[key] == filter.value
      && (forall k :: k in r.additionalFields && k != key ==> r'.additionalFields[k] == r.additionalFields[k])
    ensures r'.(additionalFields := r.additionalFields) == r
  {
    r.(additionalFields := r.additionalFields[FilterKey(fieldName, filter) := filter.value])
  }

  /** A holder with the root fields as its sub-fields and nothing of its
      own, so that the roots are serialised like the sub-fields of a node. */
  function Roots(r: Request): Field {
    Field("", false, false, r.fields, [])
  }

  /** The root fields of `r`, as one part of the serialisation. */
  ghost function RootPart(r: Request): (part: Part)
    ensures ValidPart(part)
  {
    Children(Roots(r), r.fields.Keys)
  }

  /** What a root field stored under `name` contributes, or nothing when
      there is none. */
  ghost function RootContrib(r: Request, name: string, p: Probe): multiset<string> {
    if name in r.fields then Collect(r.fields[name], p) else multiset{}
  }

  /** AddField, seen through QueryParams: the roots then contribute what
      they did before, less the field of the same name it replaces, plus
      the whole subtree of the new field. */
  lemma AddFieldContrib(r: Request, f: Field, p: Probe)
    ensures Contrib(RootPart(AddField(r, f)), p) + RootContrib(r, f.name, p)
      == Contrib(RootPart(r), p) + Collect(f, p)
  {
    var r' := AddField(r, f);
    var rest := r.fields.Keys - {f.name};
    assert r'.fields.Keys - {f.name} == rest;
    CollectKidsPick(Roots(r'), r'.fields.Keys, p, f.name);
    CollectKidsFrame(Roots(r'), Roots(r), rest, p);
    if f.name in r.fields {
      CollectKidsPick(Roots(r), r.fields.Keys, p, f.name);
    } else {
      assert r.fields.Keys == rest;
    }
  }

  /** Expand, seen through QueryParams: the stored field's own name is
      counted among the expanded names and not among the included ones;
      its sub-fields and filters contribute as they would otherwise. */
  lemma ExpandContrib(r: Request, f: Field, p: Probe)
    ensures var g := f.(isExpanded := true, isIncluded := false);
      Contrib(RootPart(Expand(r, f)), p) + RootContrib(r, f.name, p)
        == Contrib(RootPart(r), p) + Local(g, p) + CollectKids(f, f.subFields.Keys, p)
    ensures Local(f.(isExpanded := true, isIncluded := false), IncludedNames) == multiset{}
    ensures Local(f.(isExpanded := true, isIncluded := false), ExpandedNames) == multiset{f.name}
  {
    var g := f.(isExpanded := true, isIncluded := false);
    AddFieldContrib(r, g, p);
    CollectKidsFrame(g, f, f.subFields.Keys, p);
  }

  /** `q` is `w` with each additional parameter added to the values of its
      key: a key already present keeps its values and gains one more. */
  ghost predicate ExtrasAdded(w: Values, q: Values, extra: map<string, string>) {
    && q.Keys == w.Keys + extra.Keys
    && forall k :: k in q ==> q[k] == Lookup(w, k) + (if k in extra then [extra[k]] else [])
  }

  /** `q` is what QueryParams may return for `r`: the root fields
      serialised into an empty collection in some order, then the
      additional parameters added. */
  ghost predicate IsQueryParams(r: Request, q: Values) {
    exists w :: Applied(map[], w, RootPart(r)) && ExtrasAdded(w, q, r.additionalFields)
  }

  /** The second loop of QueryParams: each additional parameter is added
      with Add, in whatever order the map yields them. */
  method AddExtras(w: Values, extra: map<string, string>) returns (q: Values)
    ensures ExtrasAdded(w, q, extra)
  {
    q := w;
    var todo := extra.Keys;
    ghost var done: set<string> := {};
    while todo != {}
      invariant todo + done == extra.Keys && todo !! done
      invariant q.Keys == w.Keys + done
      invariant forall k :: k in q ==> q[k] == Lookup(w, k) + (if k in done then [extra[k]] else [])
      decreases todo
    {
      var key :| key in todo;
      q := Add(q, key, extra[key]);
      todo := todo - {key};
      done := done + {key};
    }
  }

  /** QueryParams: the root fields are serialised one after another into an
      empty collection, in whatever order the map yields them, then every
      additional parameter is added. */
  method QueryParams(r: Request) returns (q: Values)
    ensures IsQueryParams(r, q)
  {
    var w := ApplyChildren(Roots(r), map[]);
    q := AddExtras(w, r.additionalFields);
  }

  /** An additional parameter whose key a field already produced does not
      replace those values: the key ends up with one more value. */
  lemma ExtraOnTakenKey(w: Values, q: Values, extra: map<string, string>, key: string)
    requires ExtrasAdded(w, q, extra)
    requires key in extra && key in w && |w[key]| > 0
    ensures key in q && |q[key]| == |w[key]| + 1
    ensures q[key][0] == w[key][0] && q[key][|q[key]| - 1] == extra[key]
  {
  }

  /** A request without fields or additional parameters has no query
      parameters at all. */
  lemma NoFieldsNoParams(r: Request, q: Values)
    requires r.fields == map[] && r.additionalFields == map[]
    requires IsQueryParams(r, q)
    ensures q == map[]
  {
    var w :| Applied(map[], w, RootPart(r)) && ExtrasAdded(w, q, r.additionalFields);
    var part := RootPart(r);
    forall p
      ensures Contrib(part, p) == multiset{}
    {
    }
    assert KeepsLists(part);
    var ws :| multiset(ws) == Contrib(part, IncludedNames) && ListAfter(map[], w, FieldsKey, ws);
    var xs :| multiset(xs) == Contrib(part, ExpandedNames) && ListAfter(map[], w, ExpandKey, xs);
    assert ws == [] && xs == [];
    assert w.Keys == {};
  }

  /** What QueryParams yields under a key other than the two lists: the
      filter values of every root field's subtree sent under that key,
      plus the additional parameter of that key if there is one. */
  lemma QueryParamsFilters(r: Request, q: Values, key: string)
    requires IsQueryParams(r, q)
    requires key != FieldsKey && key != ExpandKey
    ensures multiset(Lookup(q, key)) == Contrib(RootPart(r), FilterValuesAt(key))
      + (if key in r.additionalFields then multiset{r.additionalFields[key]} else multiset{})
    ensures key in q <==> Contrib(RootPart(r), FilterValuesAt(key)) != multiset{} || key in r.additionalFields
  {
    var w :| Applied(map[], w, RootPart(r)) && ExtrasAdded(w, q, r.additionalFields);
    assert multiset(Lookup(w, key)) == Contrib(RootPart(r), FilterValuesAt(key));
  }

  /** The additional parameter of `key`, as a list of at most one value. */
  function ExtraValues(r: Request, key: string): seq<string> {
    if key in r.additionalFields then [r.additionalFields[key]] else []
  }

  /** What QueryParams yields under `fields` or `fields_to_expand` when no
      filter uses those keys and every listed name is non-empty and free of
      commas: one comma list holding the listed names of every root
      subtree, followed by the additional parameter of that key if there is
      one; with no listed names, just that additional parameter, and no
      parameter at all without one. */
  lemma QueryParamsLists(r: Request, q: Values, names: Probe, key: string)
    requires IsQueryParams(r, q)
    requires (names == IncludedNames && key == FieldsKey) || (names == ExpandedNames && key == ExpandKey)
    requires KeepsLists(RootPart(r))
    requires forall x :: x in Contrib(RootPart(r), names) ==> x != "" && ',' !in x
    ensures Contrib(RootPart(r), names) == multiset{} ==>
      (key in q <==> key in r.additionalFields) && Lookup(q, key) == ExtraValues(r, key)
    ensures Contrib(RootPart(r), names) != multiset{} ==>
      && key in q && |q[key]| == 1 + |ExtraValues(r, key)|
      && multiset(CommaSplit(q[key][0])) == Contrib(RootPart(r), names)
      && q[key][1..] == ExtraValues(r, key)
  {
    var w :| Applied(map[], w, RootPart(r)) && ExtrasAdded(w, q, r.additionalFields);
    var part := RootPart(r);
    assert Listed(map[], w, part, names, key);
    ListedNamesReadBack(w, part, names, key);
    ExtrasLookup(w, q, r, key);
  }

  /** One key after the additional parameters are added: its earlier
      values, then its additional parameter. */
  lemma ExtrasLookup(w: Values, q: Values, r: Request, key: string)
    requires ExtrasAdded(w, q, r.additionalFields)
    ensures (key in q <==> key in w || key in r.additionalFields)
    ensures Lookup(q, key) == Lookup(w, key) + ExtraValues(r, key)
  {
  }

  /** ToURL for a request without fields or additional parameters: given
      any encoding that is empty exactly for an empty collection, as
      url.Values.Encode is, the URL text is the bare path. */
  lemma BarePathWithoutParams(r: Request, q: Values, encodedQuery: string)
    requires r.fields == map[] && r.additionalFields == map[]
    requires IsQueryParams(r, q)
    requires encodedQuery == "" <==> q == map[]
    ensures ToUrl(r, encodedQuery) == Path(r)
  {
  }

  /** The path part of the URL: endpoint, collection and a slash, then the
      id and a slash when there is an id. */
  function Path(r: Request): (path: string)
    ensures r.id == "" ==> path == r.endpoint + r.collection + "/"
    ensures r.id != "" ==> path == r.endpoint + r.collection + "/" + r.id + "/"
  {
    var base := r.endpoint + r.collection + "/";
    if r.id != "" then base + r.id + "/" else base
  }

  /** ToURL's text before parsing: the path, then "?" and the encoded query
      only when the encoded query is not empty. Encoding the parameters is
      left to the caller (`encodedQuery`). */
  function ToUrl(r: Request, encodedQuery: string): (url: string)
    ensures Path(r) <= url
    ensures encodedQuery == "" ==> url == Path(r)
    ensures encodedQuery != "" ==> url == Path(r) + "?" + encodedQuery
  {
    var path := Path(r);
    if encodedQuery != "" then path + "?" + encodedQuery else path
  }

  /** When the endpoint, collection and id contain no "?", the URL has a
      query part exactly when the encoded query is not empty. */
  lemma QueryMarkOnlyWithParams(r: Request, encodedQuery: string)
    requires '?' !in r.endpoint && '?' !in r.collection && '?' !in r.id
    ensures '?' in ToUrl(r, encodedQuery) <==> encodedQuery != ""
  {
    var path := Path(r);
    assert '?' !in path by {
      var base := r.endpoint + r.collection + "/";
      assert '?' !in base;
    }
    if encodedQuery != "" {
      assert ToUrl(r, encodedQuery)[|path|] == '?';
    }
  }
}

=== FILE: scenarios.dfy ===
/** The request scenarios of client_test.go, stated about the model. */
module Scenarios {
  import opened Filters
  import opened QueryValues
  import opened Fields
  import opened Requests

  /** Three nested WithSubField calls, innermost first: the innermost leaf
      ends up named `outer__middle__inner__leaf`, reached through the keys
      each level stored it under. */
  lemma ChainComposes(outer: Field, middle: Field, inner: Field, leaf: Field)
    ensures var o := WithSubField(outer, WithSubField(middle, WithSubField(inner, leaf)));
      var k1, k2, k3 := Qualified(outer.name, middle.name), Qualified(middle.name, inner.name),
                        Qualified(inner.name, leaf.name);
      && k1 in o.subFields && k2 in o.subFields[k1].subFields && k3 in o.subFields[k1].subFields[k2].subFields
      && o.subFields[k1].subFields[k2].subFields[k3].name
           == Qualified(outer.name, Qualified(middle.name, Qualified(inner.name, leaf.name)))
  {
    var i := WithSubField(inner, leaf);
    var m := WithSubField(middle, i);
    var o := WithSubField(outer, m);
    var k1, k2, k3 := Qualified(outer.name, middle.name), Qualified(middle.name, inner.name),
                      Qualified(inner.name, leaf.name);
    var z := i.subFields[k3];
    var y := m.subFields[k2];
    assert y == AdjustName(i, middle.name);
    AdjustedChild(i, middle.name, k3);
    var y3 := y.subFields[k3];
    assert y3 == AdjustName(z, middle.name);
    var x := o.subFields[k1];
    assert x == AdjustName(m, outer.name);
    AdjustedChild(m, outer.name, k2);
    assert x.subFields[k2] == AdjustName(y, outer.name);
    AdjustedChild(y, outer.name, k3);
    assert x.subFields[k2].subFields[k3] == AdjustName(y3, outer.name);
    assert z.name == Qualified(inner.name, leaf.name);
  }

  /** The qualified names along the chain of TestMultipleExpansion. */
  lemma ChainNames()
    ensures Qualified("channel_urls", "driver_urls") == "channel_urls__driver_urls"
    ensures Qualified("driver_urls", "team_url") == "driver_urls__team_url"
    ensures Qualified("team_url", "name") == "team_url__name"
    ensures Qualified("channel_urls", Qualified("driver_urls", Qualified("team_url", "name")))
      == "channel_urls__driver_urls__team_url__name"
  {
    assert Qualified("driver_urls", "team_url__name") == "driver_urls__team_url__name";
  }

  /** The chain of TestMultipleExpansion: channel_urls, driver_urls,
      team_url, name. */
  lemma MultipleExpansionChain()
    ensures var o := WithSubField(NewField("channel_urls"), WithSubField(NewField("driver_urls"),
                       WithSubField(NewField("team_url"), NewField("name"))));
      && "channel_urls__driver_urls" in o.subFields
      && "driver_urls__team_url" in o.subFields["channel_urls__driver_urls"].subFields
      && "team_url__name" in o.subFields["channel_urls__driver_urls"].subFields["driver_urls__team_url"].subFields
      && o.subFields["channel_urls__driver_urls"].subFields["driver_urls__team_url"].subFields["team_url__name"].name
        == "channel_urls__driver_urls__team_url__name"
  {
    var c, d, t, n := NewField("channel_urls"), NewField("driver_urls"), NewField("team_url"), NewField("name");
    assert c.name == "channel_urls" && d.name == "driver_urls" && t.name == "team_url" && n.name == "name";
    ChainComposes(c, d, t, n);
    ChainNames();
  }

  /** A leaf contributes what it carries itself. */
  lemma CollectLeaf(f: Field, p: Probe)
    requires f.subFields == map[]
    ensures Collect(f, p) == Local(f, p)
  {
  }

  /** A node with one sub-field contributes itself and that subtree. */
  lemma CollectOneChild(f: Field, k: string, p: Probe)
    requires f.subFields.Keys == {k}
    ensures Collect(f, p) == Local(f, p) + Collect(f.subFields[k], p)
  {
    CollectKidsPick(f, {k}, p, k);
    assert {k} - {k} == {};
  }

  /** Two sub-fields contribute both their subtrees. */
  lemma CollectTwoKids(f: Field, a: string, b: string, p: Probe)
    requires a in f.subFields && b in f.subFields && a != b
    ensures CollectKids(f, {a, b}, p) == Collect(f.subFields[a], p) + Collect(f.subFields[b], p)
  {
    CollectKidsPick(f, {a, b}, p, a);
    assert {a, b} - {a} == {b};
    CollectKidsPick(f, {b}, p, b);
    assert {b} - {b} == {};
  }

  /** The request of TestExpandOnly with its names left open: root `a`
      expanded with its sub-field `c` expanded, and root `b` expanded. */
  function ExpandOnlyRequest(endpoint: string, collection: string, id: string, a: string, c: string, b: string): Request
    requires |endpoint| > 0
  {
    Requests.Expand(Requests.Expand(NewRequest(endpoint, collection, id), Fields.Expand(NewField(a), NewField(c))),
                    NewField(b))
  }

  /** The root fields of that request: `a` expanded with its expanded
      sub-field `a__c`, and `b` expanded, none of them included. */
  lemma ExpandOnlyShape(endpoint: string, collection: string, id: string, a: string, c: string, b: string)
    requires |endpoint| > 0 && a != b
    ensures var ac := Qualified(a, c);
      ExpandOnlyRequest(endpoint, collection, id, a, c, b).fields
        == map[a := Field(a, false, true, map[ac := Field(ac, false, true, map[], [])], []),
               b := Field(b, false, true, map[], [])]
  {
    var ac := Qualified(a, c);
    var inner := Fields.Expand(NewField(a), NewField(c));
    assert inner.subFields == map[ac := AdjustName(Field(c, false, true, map[], []), a)];
    assert AdjustName(Field(c, false, true, map[], []), a) == Field(ac, false, true, map[], []);
  }

  /** The root fields of TestExpandOnly's shape, as a holder. */
  ghost predicate ExpandOnlyRoots(f: Field, a: string, ac: string, b: string) {
    && a != b
    && f.subFields == map[a := Field(a, false, true, map[ac := Field(ac, false, true, map[], [])], []),
                          b := Field(b, false, true, map[], [])]
  }

  /** The shape above contributes its three nodes, for any probe. */
  lemma ExpandOnlyCollect(f: Field, a: string, ac: string, b: string, p: Probe)
    requires ExpandOnlyRoots(f, a, ac, b)
    ensures CollectKids(f, f.subFields.Keys, p)
      == Local(f.subFields[a], p) + Local(f.subFields[a].subFields[ac], p) + Local(f.subFields[b], p)
  {
    var fa, fb := f.subFields[a], f.subFields[b];
    var fc := fa.subFields[ac];
    assert f.subFields.Keys == {a, b};
    assert fa.subFields.Keys == {ac};
    CollectTwoKids(f, a, b, p);
    CollectOneChild(fa, ac, p);
    CollectLeaf(fc, p);
    CollectLeaf(fb, p);
  }

  /** Those roots expand their three nodes and list and filter nothing. */
  lemma ExpandOnlyListsContrib(f: Field, a: string, ac: string, b: string)
    requires ExpandOnlyRoots(f, a, ac, b)
    ensures CollectKids(f, f.subFields.Keys, IncludedNames) == multiset{}
    ensures CollectKids(f, f.subFields.Keys, ExpandedNames) == multiset{b, a, ac}
    ensures CollectKids(f, f.subFields.Keys, FilterKeys) == multiset{}
  {
    var fa, fb := f.subFields[a], f.subFields[b];
    var fc := fa.subFields[ac];
    assert fa == Field(a, false, true, map[ac := Field(ac, false, true, map[], [])], []);
    assert fc == Field(ac, false, true, map[], []) && fb == Field(b, false, true, map[], []);
    assert CollectKids(f, f.subFields.Keys, IncludedNames) == multiset{} by {
      ExpandOnlyCollect(f, a, ac, b, IncludedNames);
    }
    assert CollectKids(f, f.subFields.Keys, ExpandedNames) == multiset{b, a, ac} by {
      ExpandOnlyCollect(f, a, ac, b, ExpandedNames);
      assert Local(fa, ExpandedNames) == multiset{a};
      assert Local(fc, ExpandedNames) == multiset{ac};
      assert Local(fb, ExpandedNames) == multiset{b};
    }
    assert CollectKids(f, f.subFields.Keys, FilterKeys) == multiset{} by {
      ExpandOnlyCollect(f, a, ac, b, FilterKeys);
    }
  }

  lemma ExpandOnlyNoFilter(f: Field, a: string, ac: string, b: string, k: string)
    requires ExpandOnlyRoots(f, a, ac, b)
    ensures CollectKids(f, f.subFields.Keys, FilterValuesAt(k)) == multiset{}
  {
    ExpandOnlyCollect(f, a, ac, b, FilterValuesAt(k));
  }

  /** What the root fields of TestExpandOnly's shape contribute. */
  lemma ExpandOnlyContrib(r: Request, a: string, ac: string, b: string)
    requires ExpandOnlyRoots(Roots(r), a, ac, b)
    ensures Contrib(RootPart(r), IncludedNames) == multiset{}
    ensures Contrib(RootPart(r), ExpandedNames) == multiset{b, a, ac}
    ensures Contrib(RootPart(r), FilterKeys) == multiset{}
    ensures forall k :: Contrib(RootPart(r), FilterValuesAt(k)) == multiset{}
  {
    ExpandOnlyListsContrib(Roots(r), a, ac, b);
    forall k
      ensures Contrib(RootPart(r), FilterValuesAt(k)) == multiset{}
    {
      ExpandOnlyNoFilter(Roots(r), a, ac, b, k);
    }
  }

  /** Expanding without including: nothing is listed under `fields`, and
      the single comma list under `fields_to_expand` names `b`, `a` and
      `a__c`; there is no other parameter. */
  lemma ExpandOnlyParams(r: Request, a: string, ac: string, b: string, q: Values)
    requires ExpandOnlyRoots(Roots(r), a, ac, b) && r.additionalFields == map[]
    requires a != "" && b != "" && ac != "" && ',' !in a && ',' !in b && ',' !in ac
    requires IsQueryParams(r, q)
    ensures q.Keys == {ExpandKey} && |q[ExpandKey]| == 1
    ensures multiset(CommaSplit(q[ExpandKey][0])) == multiset{b, a, ac}
  {
    ExpandOnlyContrib(r, a, ac, b);
    var names := Contrib(RootPart(r), ExpandedNames);
    assert forall x :: x in names ==> x != "" && ',' !in x by {
      NamesFine(b, a, ac);
    }
    assert FieldsKey !in q by {
      QueryParamsLists(r, q, IncludedNames, FieldsKey);
    }
    assert ExpandKey in q && |q[ExpandKey]| == 1 && multiset(CommaSplit(q[ExpandKey][0])) == multiset{b, a, ac} by {
      QueryParamsLists(r, q, ExpandedNames, ExpandKey);
    }
    forall k | k in q && k != FieldsKey && k != ExpandKey
      ensures false
    {
      NoOtherParam(r, q, k);
    }
    OneKey(q, ExpandKey, FieldsKey);
  }

  /** The names of TestExpandOnly are distinct, non-empty and comma-free. */
  lemma ExpandOnlyNames()
    ensures var ac := Qualified("nation_url", "eventoccurrence_urls");
      && ac == "nation_url__eventoccurrence_urls"
      && "nation_url" != "driver_urls" && ac != ""
      && ',' !in "nation_url" && ',' !in "driver_urls" && ',' !in ac
  {
  }

  /** TestExpandOnly: "fields_to_expand=driver_urls,nation_url,
      nation_url__eventoccurrence_urls" in some order, and nothing else. */
  lemma ExpandOnlyScenario(q: Values)
    requires IsQueryParams(ExpandOnlyRequest("https://test.com/api/", "team", "team_123",
                                              "nation_url", "eventoccurrence_urls", "driver_urls"), q)
    ensures q.Keys == {ExpandKey} && |q[ExpandKey]| == 1
    ensures multiset(CommaSplit(q[ExpandKey][0]))
      == multiset{"driver_urls", "nation_url", "nation_url__eventoccurrence_urls"}
  {
    var r := ExpandOnlyRequest("https://test.com/api/", "team", "team_123",
                               "nation_url", "eventoccurrence_urls", "driver_urls");
    var a, c, b := "nation_url", "eventoccurrence_urls", "driver_urls";
    var ac := Qualified(a, c);
    ExpandOnlyNames();
    assert ExpandOnlyRoots(Roots(r), a, ac, b) && r.additionalFields == map[] by {
      ExpandOnlyShape("https://test.com/api/", "team", "team_123", a, c, b);
    }
    ExpandOnlyParams(r, a, ac, b, q);
  }

  /** Taking the first of three distinct keys leaves the other two. */
  lemma RemoveFirst(a: string, b: string, c: string)
    requires a != b && a != c
    ensures {a, b, c} - {a} == {b, c}
  {
  }

  /** Three sub-fields contribute their three subtrees. */
  lemma CollectThreeKids(f: Field, a: string, b: string, c: string, p: Probe)
    requires a in f.subFields && b in f.subFields && c in f.subFields
    requires a != b && a != c && b != c
    ensures CollectKids(f, {a, b, c}, p)
      == Collect(f.subFields[a], p) + Collect(f.subFields[b], p) + Collect(f.subFields[c], p)
  {
    RemoveFirst(a, b, c);
    CollectKidsPick(f, {a, b, c}, p, a);
    CollectTwoKids(f, b, c, p);
  }

  /** What a node carrying the single filter `filter` sends. */
  lemma SingleFilter(name: string, filter: Filter, k: string)
    ensures FilterKeysOf(name, [filter]) == multiset{FilterKey(name, filter)}
    ensures FilterValues(name, [filter], k)
      == if FilterKey(name, filter) == k then multiset{filter.value} else multiset{}
  {
    var fs := [filter];
    assert fs[..0] == [];
  }

  /** The request of TestFieldFilter with its names left open: included
      roots `a`, `b` and `c`, the first one filtered. */
  function FieldFilterRequest(endpoint: string, collection: string, id: string,
                              a: string, filter: Filter, b: string, c: string): Request
    requires |endpoint| > 0
  {
    AddField(AddField(AddField(NewRequest(endpoint, collection, id), Fields.WithFilter(NewField(a), filter)),
                      NewField(b)),
             NewField(c))
  }

  /** The root fields of that request. */
  lemma FieldFilterShape(endpoint: string, collection: string, id: string,
                         a: string, filter: Filter, b: string, c: string)
    requires |endpoint| > 0 && a != b && a != c && b != c
    ensures FieldFilterRequest(endpoint, collection, id, a, filter, b, c).fields
      == map[a := Field(a, true, false, map[], [filter]),
             b := Field(b, true, false, map[], []), c := Field(c, true, false, map[], [])]
    ensures FieldFilterRequest(endpoint, collection, id, a, filter, b, c).additionalFields == map[]
  {
    assert Fields.WithFilter(NewField(a), filter) == Field(a, true, false, map[], [filter]) by {
      assert [] + [filter] == [filter];
    }
  }

  /** Three leaf sub-fields contribute what they carry themselves. */
  lemma CollectThreeLeaves(f: Field, a: string, b: string, c: string, p: Probe)
    requires f.subFields.Keys == {a, b, c} && a != b && a != c && b != c
    requires f.subFields[a].subFields == map[] && f.subFields[b].subFields == map[]
    requires f.subFields[c].subFields == map[]
    ensures CollectKids(f, f.subFields.Keys, p)
      == Local(f.subFields[a], p) + Local(f.subFields[b], p) + Local(f.subFields[c], p)
  {
    CollectThreeKids(f, a, b, c, p);
    CollectLeaf(f.subFields[a], p);
    CollectLeaf(f.subFields[b], p);
    CollectLeaf(f.subFields[c], p);
  }

  /** The root fields of TestFieldFilter's shape, as a holder. */
  ghost predicate FieldFilterRoots(f: Field, a: string, filter: Filter, b: string, c: string) {
    && a != b && a != c && b != c
    && f.subFields == map[a := Field(a, true, false, map[], [filter]),
                          b := Field(b, true, false, map[], []), c := Field(c, true, false, map[], [])]
  }

  /** Those roots list their three names and expand nothing. */
  lemma FieldFilterNamesContrib(f: Field, a: string, filter: Filter, b: string, c: string)
    requires FieldFilterRoots(f, a, filter, b, c)
    ensures CollectKids(f, f.subFields.Keys, IncludedNames) == multiset{a, b, c}
    ensures CollectKids(f, f.subFields.Keys, ExpandedNames) == multiset{}
  {
    var fa, fb, fc := f.subFields[a], f.subFields[b], f.subFields[c];
    assert f.subFields.Keys == {a, b, c};
    assert fa == Field(a, true, false, map[], [filter]);
    assert fb == Field(b, true, false, map[], []) && fc == Field(c, true, false, map[], []);
    CollectThreeLeaves(f, a, b, c, IncludedNames);
    assert Local(fa, IncludedNames) == multiset{a};
    assert Local(fb, IncludedNames) == multiset{b};
    assert Local(fc, IncludedNames) == multiset{c};
    CollectThreeLeaves(f, a, b, c, ExpandedNames);
  }

  /** Those roots send the one filter of `a`, and nothing else. */
  lemma FieldFilterKeysContrib(f: Field, a: string, filter: Filter, b: string, c: string)
    requires FieldFilterRoots(f, a, filter, b, c)
    ensures CollectKids(f, f.subFields.Keys, FilterKeys) == multiset{FilterKey(a, filter)}
  {
    assert f.subFields.Keys == {a, b, c};
    CollectThreeLeaves(f, a, b, c, FilterKeys);
    SingleFilter(a, filter, "");
  }

  lemma FieldFilterValuesContrib(f: Field, a: string, filter: Filter, b: string, c: string, k: string)
    requires FieldFilterRoots(f, a, filter, b, c)
    ensures CollectKids(f, f.subFields.Keys, FilterValuesAt(k))
      == if k == FilterKey(a, filter) then multiset{filter.value} else multiset{}
  {
    assert f.subFields.Keys == {a, b, c};
    CollectThreeLeaves(f, a, b, c, FilterValuesAt(k));
    SingleFilter(a, filter, k);
  }

  /** What the root fields of TestFieldFilter's shape contribute. */
  lemma FieldFilterContrib(r: Request, a: string, filter: Filter, b: string, c: string)
    requires FieldFilterRoots(Roots(r), a, filter, b, c)
    ensures Contrib(RootPart(r), IncludedNames) == multiset{a, b, c}
    ensures Contrib(RootPart(r), ExpandedNames) == multiset{}
    ensures Contrib(RootPart(r), FilterKeys) == multiset{FilterKey(a, filter)}
    ensures forall k :: (Contrib(RootPart(r), FilterValuesAt(k))
      == if k == FilterKey(a, filter) then multiset{filter.value} else multiset{})
  {
    var f := Roots(r);
    FieldFilterNamesContrib(f, a, filter, b, c);
    FieldFilterKeysContrib(f, a, filter, b, c);
    forall k
      ensures Contrib(RootPart(r), FilterValuesAt(k))
        == if k == FilterKey(a, filter) then multiset{filter.value} else multiset{}
    {
      FieldFilterValuesContrib(f, a, filter, b, c, k);
    }
  }

  /** Non-empty, comma-free names stay so in a multiset. */
  lemma NamesFine(a: string, b: string, c: string)
    requires a != "" && b != "" && c != "" && ',' !in a && ',' !in b && ',' !in c
    ensures forall x :: x in multiset{a, b, c} ==> x != "" && ',' !in x
  {
  }

  /** No filter of the roots is sent under a list key, so the lists hold
      names only. */
  lemma OnlyFilterKey(r: Request, key: string)
    requires key != FieldsKey && key != ExpandKey
    requires Contrib(RootPart(r), FilterKeys) == multiset{key}
    ensures KeepsLists(RootPart(r))
  {
  }

  /** With one filter key and no additional parameter, the filter key holds
      exactly the filter's value. */
  lemma OneFilterParam(r: Request, q: Values, key: string, value: string)
    requires IsQueryParams(r, q) && r.additionalFields == map[]
    requires key != FieldsKey && key != ExpandKey
    requires Contrib(RootPart(r), FilterValuesAt(key)) == multiset{value}
    ensures key in q && q[key] == [value]
  {
    QueryParamsFilters(r, q, key);
    assert multiset(q[key]) == multiset{value};
  }

  /** A collection whose keys are among `x` and `z`, holding `x` but not
      `z`, has exactly the key `x`. */
  lemma OneKey(q: Values, x: string, z: string)
    requires x in q && z !in q
    requires forall k :: k in q ==> k == x || k == z
    ensures q.Keys == {x}
  {
  }

  /** A collection whose keys are among `x`, `y` and `z`, holding `x` and
      `y` but not `z`, has exactly the keys `x` and `y`. */
  lemma TwoKeys(q: Values, x: string, y: string, z: string)
    requires x in q && y in q && z !in q
    requires forall k :: k in q ==> k == x || k == y || k == z
    ensures q.Keys == {x, y}
  {
  }

  /** A key other than the list keys that neither a filter nor an
      additional parameter uses is absent. */
  lemma NoOtherParam(r: Request, q: Values, k: string)
    requires IsQueryParams(r, q) && k !in r.additionalFields
    requires k != FieldsKey && k != ExpandKey
    requires Contrib(RootPart(r), FilterValuesAt(k)) == multiset{}
    ensures k !in q
  {
    QueryParamsFilters(r, q, k);
  }

  /** With no filter, a single additional parameter is sent as it is. */
  lemma OneExtraParam(r: Request, q: Values, key: string, value: string)
    requires IsQueryParams(r, q) && r.additionalFields == map[key := value]
    requires key != FieldsKey && key != ExpandKey
    requires Contrib(RootPart(r), FilterValuesAt(key)) == multiset{}
    ensures key in q && q[key] == [value]
  {
    QueryParamsFilters(r, q, key);
    assert multiset(q[key]) == multiset{value};
  }

  /** With no additional parameter and filters sent only under `key`, the
      query has no key but `key` and the list keys. */
  lemma OnlyFilterKeyParam(r: Request, q: Values, key: string, value: string)
    requires IsQueryParams(r, q) && r.additionalFields == map[]
    requires forall k :: (Contrib(RootPart(r), FilterValuesAt(k))
      == if k == key then multiset{value} else multiset{})
    ensures forall k :: k in q ==> k == FieldsKey || k == ExpandKey || k == key
  {
    forall k | k in q && k != FieldsKey && k != ExpandKey && k != key
      ensures false
    {
      NoOtherParam(r, q, k);
    }
  }

  /** Root fields that list `names` under `fields`, expand nothing and
      send one filter `value` under `key`, with no additional parameter:
      the query holds exactly the comma list of `names` and `key=value`. */
  lemma ListAndFilterParams(r: Request, q: Values, names: multiset<string>, key: string, value: string)
    requires IsQueryParams(r, q) && r.additionalFields == map[]
    requires key != FieldsKey && key != ExpandKey
    requires names != multiset{} && forall x :: x in names ==> x != "" && ',' !in x
    requires Contrib(RootPart(r), IncludedNames) == names
    requires Contrib(RootPart(r), ExpandedNames) == multiset{}
    requires Contrib(RootPart(r), FilterKeys) == multiset{key}
    requires forall k :: (Contrib(RootPart(r), FilterValuesAt(k))
      == if k == key then multiset{value} else multiset{})
    ensures q.Keys == {FieldsKey, key}
    ensures |q[FieldsKey]| == 1 && multiset(CommaSplit(q[FieldsKey][0])) == names
    ensures q[key] == [value]
  {
    OnlyFilterKey(r, key);
    QueryParamsLists(r, q, IncludedNames, FieldsKey);
    QueryParamsLists(r, q, ExpandedNames, ExpandKey);
    OneFilterParam(r, q, key, value);
    OnlyFilterKeyParam(r, q, key, value);
    TwoKeys(q, FieldsKey, key, ExpandKey);
  }

  /** TestFieldFilter with its names left open: three included roots,
      the first one filtered, give the comma list of the three names and
      the filter's value under its key, and nothing else. */
  lemma FieldFilterParams(r: Request, a: string, filter: Filter, b: string, c: string, q: Values)
    requires FieldFilterRoots(Roots(r), a, filter, b, c) && r.additionalFields == map[]
    requires FilterKey(a, filter) != FieldsKey && FilterKey(a, filter) != ExpandKey
    requires a != "" && b != "" && c != "" && ',' !in a && ',' !in b && ',' !in c
    requires IsQueryParams(r, q)
    ensures q.Keys == {FieldsKey, FilterKey(a, filter)}
    ensures |q[FieldsKey]| == 1 && multiset(CommaSplit(q[FieldsKey][0])) == multiset{a, b, c}
    ensures q[FilterKey(a, filter)] == [filter.value]
  {
    FieldFilterContrib(r, a, filter, b, c);
    NamesFine(a, b, c);
    ListAndFilterParams(r, q, multiset{a, b, c}, FilterKey(a, filter), filter.value);
  }

  /** The names of TestFieldFilter are distinct, non-empty and comma-free,
      and the filter is sent as "year__gt". */
  lemma FieldFilterNames()
    ensures FilterKey("year", NewFilter(GreaterThan, "2017")) == "year__gt"
    ensures "year__gt" != FieldsKey && "year__gt" != ExpandKey
    ensures "year" != "name" && "year" != "self" && "name" != "self"
    ensures ',' !in "year" && ',' !in "name" && ',' !in "self"
  {
    GreaterThanKeyExample();
  }

  /** TestFieldFilter: "fields=year,name,self" in some order and
      "year__gt=2017", and nothing else. */
  lemma FieldFilterScenario(q: Values)
    requires IsQueryParams(FieldFilterRequest("https://test.com/api/", "race-season", "",
                                              "year", NewFilter(GreaterThan, "2017"), "name", "self"), q)
    ensures q.Keys == {FieldsKey, "year__gt"}
    ensures |q[FieldsKey]| == 1 && multiset(CommaSplit(q[FieldsKey][0])) == multiset{"year", "name", "self"}
    ensures q["year__gt"] == ["2017"]
  {
    var filter := NewFilter(GreaterThan, "2017");
    var r := FieldFilterRequest("https://test.com/api/", "race-season", "", "year", filter, "name", "self");
    FieldFilterNames();
    assert FieldFilterRoots(Roots(r), "year", filter, "name", "self") && r.additionalFields == map[] by {
      FieldFilterShape("https://test.com/api/", "race-season", "", "year", filter, "name", "self");
    }
    FieldFilterParams(r, "year", filter, "name", "self", q);
  }

  /** Two included leaf roots, as a holder. */
  ghost predicate TwoLeafRoots(f: Field, a: string, b: string) {
    a != b && f.subFields == map[a := Field(a, true, false, map[], []), b := Field(b, true, false, map[], [])]
  }

  /** Two leaf sub-fields contribute what they carry themselves. */
  lemma CollectTwoLeaves(f: Field, a: string, b: string, p: Probe)
    requires f.subFields.Keys == {a, b} && a != b
    requires f.subFields[a].subFields == map[] && f.subFields[b].subFields == map[]
    ensures CollectKids(f, f.subFields.Keys, p) == Local(f.subFields[a], p) + Local(f.subFields[b], p)
  {
    CollectTwoKids(f, a, b, p);
    CollectLeaf(f.subFields[a], p);
    CollectLeaf(f.subFields[b], p);
  }

  /** Two leaf roots list their names and send nothing else. */
  lemma TwoLeafRootsContrib(f: Field, a: string, b: string)
    requires TwoLeafRoots(f, a, b)
    ensures CollectKids(f, f.subFields.Keys, IncludedNames) == multiset{a, b}
    ensures CollectKids(f, f.subFields.Keys, ExpandedNames) == multiset{}
    ensures CollectKids(f, f.subFields.Keys, FilterKeys) == multiset{}
  {
    var fa, fb := f.subFields[a], f.subFields[b];
    assert f.subFields.Keys == {a, b};
    assert fa == Field(a, true, false, map[], []) && fb == Field(b, true, false, map[], []);
    CollectTwoLeaves(f, a, b, IncludedNames);
    assert Local(fa, IncludedNames) == multiset{a};
    assert Local(fb, IncludedNames) == multiset{b};
    CollectTwoLeaves(f, a, b, ExpandedNames);
    CollectTwoLeaves(f, a, b, FilterKeys);
  }

  lemma TwoLeafRootsNoFilter(f: Field, a: string, b: string, k: string)
    requires TwoLeafRoots(f, a, b)
    ensures CollectKids(f, f.subFields.Keys, FilterValuesAt(k)) == multiset{}
  {
    assert f.subFields.Keys == {a, b};
    CollectTwoLeaves(f, a, b, FilterValuesAt(k));
  }

  /** With no filter and one additional parameter `key` outside the list
      keys, the query has no key but `key` and the list keys. */
  lemma OnlyExtraKey(r: Request, q: Values, key: string, value: string)
    requires IsQueryParams(r, q) && r.additionalFields == map[key := value]
    requires forall k :: Contrib(RootPart(r), FilterValuesAt(k)) == multiset{}
    ensures forall k :: k in q ==> k == FieldsKey || k == ExpandKey || k == key
  {
    forall k | k in q && k != FieldsKey && k != ExpandKey && k != key
      ensures false
    {
      NoOtherParam(r, q, k);
    }
  }

  /** Root fields that list `names`, expand nothing and carry no filter,
      with one additional parameter `key=value` outside the list keys: the
      query holds exactly the comma list of `names` and `key=value`. */
  lemma ListAndExtraParams(r: Request, q: Values, names: multiset<string>, key: string, value: string)
    requires IsQueryParams(r, q) && r.additionalFields == map[key := value]
    requires key != FieldsKey && key != ExpandKey
    requires names != multiset{} && forall x :: x in names ==> x != "" && ',' !in x
    requires Contrib(RootPart(r), IncludedNames) == names
    requires Contrib(RootPart(r), ExpandedNames) == multiset{}
    requires Contrib(RootPart(r), FilterKeys) == multiset{}
    requires forall k :: Contrib(RootPart(r), FilterValuesAt(k)) == multiset{}
    ensures q.Keys == {FieldsKey, key}
    ensures |q[FieldsKey]| == 1 && multiset(CommaSplit(q[FieldsKey][0])) == names
    ensures q[key] == [value]
  {
    QueryParamsLists(r, q, IncludedNames, FieldsKey);
    QueryParamsLists(r, q, ExpandedNames, ExpandKey);
    OneExtraParam(r, q, key, value);
    OnlyExtraKey(r, q, key, value);
    TwoKeys(q, FieldsKey, key, ExpandKey);
  }

  /** The request of TestRequestFilter with its names left open: included
      roots `a` and `b`, and a filter on `name`, a field not requested. */
  function RequestFilterRequest(endpoint: string, collection: string, id: string,
                                a: string, b: string, name: string, filter: Filter): Request
    requires |endpoint| > 0
  {
    Requests.WithFilter(AddField(AddField(NewRequest(endpoint, collection, id), NewField(a)), NewField(b)),
                        name, filter)
  }

  lemma RequestFilterShape(endpoint: string, collection: string, id: string,
                           a: string, b: string, name: string, filter: Filter)
    requires |endpoint| > 0 && a != b
    ensures var r := RequestFilterRequest(endpoint, collection, id, a, b, name, filter);
      && TwoLeafRoots(Roots(r), a, b)
      && r.additionalFields == map[FilterKey(name, filter) := filter.value]
  {
  }

  /** TestRequestFilter with its names left open: the two names are
      listed, and the filter is sent as its own parameter. */
  lemma RequestFilterParams(r: Request, a: string, b: string, key: string, value: string, q: Values)
    requires TwoLeafRoots(Roots(r), a, b) && r.additionalFields == map[key := value]
    requires key != FieldsKey && key != ExpandKey
    requires a != "" && b != "" && ',' !in a && ',' !in b
    requires IsQueryParams(r, q)
    ensures q.Keys == {FieldsKey, key}
    ensures |q[FieldsKey]| == 1 && multiset(CommaSplit(q[FieldsKey][0])) == multiset{a, b}
    ensures q[key] == [value]
  {
    TwoLeafRootsContrib(Roots(r), a, b);
    forall k
      ensures Contrib(RootPart(r), FilterValuesAt(k)) == multiset{}
    {
      TwoLeafRootsNoFilter(Roots(r), a, b, k);
    }
    ListAndExtraParams(r, q, multiset{a, b}, key, value);
  }

  /** The names of TestRequestFilter: an Equals filter is sent under the
      bare field name. */
  lemma RequestFilterNames()
    ensures FilterKey("set_type_slug", NewFilter(Equals, "video")) == "set_type_slug"
    ensures "set_type_slug" != FieldsKey && "set_type_slug" != ExpandKey
    ensures "title" != "self" && ',' !in "title" && ',' !in "self"
  {
  }

  /** TestRequestFilter: "fields=title,self" in some order and
      "set_type_slug=video", and nothing else. */
  lemma RequestFilterScenario(q: Values)
    requires IsQueryParams(RequestFilterRequest("https://test.com/api/", "sets", "", "title", "self",
                                                "set_type_slug", NewFilter(Equals, "video")), q)
    ensures q.Keys == {FieldsKey, "set_type_slug"}
    ensures |q[FieldsKey]| == 1 && multiset(CommaSplit(q[FieldsKey][0])) == multiset{"title", "self"}
    ensures q["set_type_slug"] == ["video"]
  {
    var filter := NewFilter(Equals, "video");
    var r := RequestFilterRequest("https://test.com/api/", "sets", "", "title", "self", "set_type_slug", filter);
    RequestFilterNames();
    assert TwoLeafRoots(Roots(r), "title", "self") && r.additionalFields == map["set_type_slug" := "video"] by {
      RequestFilterShape("https://test.com/api/", "sets", "", "title", "self", "set_type_slug", filter);
    }
    RequestFilterParams(r, "title", "self", "set_type_slug", "video", q);
  }

  /** Three included leaf roots, as a holder. */
  ghost predicate ThreeLeafRoots(f: Field, a: string, b: string, c: string) {
    && a != b && a != c && b != c
    && f.subFields == map[a := Field(a, true, false, map[], []),
                          b := Field(b, true, false, map[], []), c := Field(c, true, false, map[], [])]
  }

  /** Three leaf roots list their names and send nothing else. */
  lemma ThreeLeafRootsContrib(f: Field, a: string, b: string, c: string)
    requires ThreeLeafRoots(f, a, b, c)
    ensures CollectKids(f, f.subFields.Keys, IncludedNames) == multiset{a, b, c}
    ensures CollectKids(f, f.subFields.Keys, ExpandedNames) == multiset{}
    ensures CollectKids(f, f.subFields.Keys, FilterKeys) == multiset{}
  {
    var fa, fb, fc := f.subFields[a], f.subFields[b], f.subFields[c];
    assert f.subFields.Keys == {a, b, c};
    assert fa == Field(a, true, false, map[], []);
    assert fb == Field(b, true, false, map[], []) && fc == Field(c, true, false, map[], []);
    CollectThreeLeaves(f, a, b, c, IncludedNames);
    assert Local(fa, IncludedNames) == multiset{a};
    assert Local(fb, IncludedNames) == multiset{b};
    assert Local(fc, IncludedNames) == multiset{c};
    CollectThreeLeaves(f, a, b, c, ExpandedNames);
    CollectThreeLeaves(f, a, b, c, FilterKeys);
  }

  lemma ThreeLeafRootsNoFilter(f: Field, a: string, b: string, c: string, k: string)
    requires ThreeLeafRoots(f, a, b, c)
    ensures CollectKids(f, f.subFields.Keys, FilterValuesAt(k)) == multiset{}
  {
    assert f.subFields.Keys == {a, b, c};
    CollectThreeLeaves(f, a, b, c, FilterValuesAt(k));
  }

  /** The request of TestOrder with its names left open: included roots
      `a`, `b` and `c`, ordered by `a`. */
  function OrderRequest(endpoint: string, collection: string, id: string,
                        a: string, b: string, c: string, order: Order): Request
    requires |endpoint| > 0
  {
    OrderBy(AddField(AddField(AddField(NewRequest(endpoint, collection, id), NewField(a)), NewField(b)),
                     NewField(c)),
            NewField(a), order)
  }

  lemma OrderShape(endpoint: string, collection: string, id: string,
                   a: string, b: string, c: string, order: Order)
    requires |endpoint| > 0 && a != b && a != c && b != c
    ensures var r := OrderRequest(endpoint, collection, id, a, b, c, order);
      && ThreeLeafRoots(Roots(r), a, b, c)
      && r.additionalFields == map[OrderKey := order.code + a]
  {
  }

  /** The request of TestOrder ordered again by `a`, the second way. */
  function ReorderedRequest(endpoint: string, collection: string, id: string,
                            a: string, b: string, c: string, first: Order, second: Order): Request
    requires |endpoint| > 0
  {
    OrderBy(OrderRequest(endpoint, collection, id, a, b, c, first), NewField(a), second)
  }

  /** Ordering the request of TestOrder again keeps its roots, and only
      the second order is sent. */
  lemma ReorderShape(endpoint: string, collection: string, id: string,
                     a: string, b: string, c: string, first: Order, second: Order)
    requires |endpoint| > 0 && a != b && a != c && b != c
    ensures var r := ReorderedRequest(endpoint, collection, id, a, b, c, first, second);
      && ThreeLeafRoots(Roots(r), a, b, c)
      && r.additionalFields == map[OrderKey := second.code + a]
  {
    OrderShape(endpoint, collection, id, a, b, c, first);
  }

  /** TestOrder with its names left open: the three names are listed, and
      the order is sent as its own parameter. */
  lemma OrderParams(r: Request, a: string, b: string, c: string, value: string, q: Values)
    requires ThreeLeafRoots(Roots(r), a, b, c) && r.additionalFields == map[OrderKey := value]
    requires a != "" && b != "" && c != "" && ',' !in a && ',' !in b && ',' !in c
    requires IsQueryParams(r, q)
    ensures q.Keys == {FieldsKey, OrderKey}
    ensures |q[FieldsKey]| == 1 && multiset(CommaSplit(q[FieldsKey][0])) == multiset{a, b, c}
    ensures q[OrderKey] == [value]
  {
    ThreeLeafRootsContrib(Roots(r), a, b, c);
    forall k
      ensures Contrib(RootPart(r), FilterValuesAt(k)) == multiset{}
    {
      ThreeLeafRootsNoFilter(Roots(r), a, b, c, k);
    }
    NamesFine(a, b, c);
    ListAndExtraParams(r, q, multiset{a, b, c}, OrderKey, value);
  }

  /** TestOrder's query: "fields=year,name,self" in some order and
      `order` holding the order code in front of "year", and nothing
      else. */
  lemma OrderQueryScenario(q: Values, order: Order)
    requires IsQueryParams(OrderRequest("https://test.com/api/", "race-season", "", "year", "name", "self", order), q)
    ensures q.Keys == {FieldsKey, OrderKey}
    ensures |q[FieldsKey]| == 1 && multiset(CommaSplit(q[FieldsKey][0])) == multiset{"year", "name", "self"}
    ensures q[OrderKey] == [order.code + "year"]
  {
    var r := OrderRequest("https://test.com/api/", "race-season", "", "year", "name", "self", order);
    FieldFilterNames();
    assert ThreeLeafRoots(Roots(r), "year", "name", "self") && r.additionalFields == map[OrderKey := order.code + "year"] by {
      OrderShape("https://test.com/api/", "race-season", "", "year", "name", "self", order);
    }
    OrderParams(r, "year", "name", "self", order.code + "year", q);
  }

  /** TestOrder: ordering on "year" ascending sends "order=year"; ordering
      again, descending, replaces it with "order=-year". */
  lemma OrderScenario(r: Request)
    requires r.additionalFields == map[]
    ensures OrderBy(r, NewField("year"), Ascending).additionalFields == map[OrderKey := "year"]
    ensures OrderBy(OrderBy(r, NewField("year"), Ascending), NewField("year"), Descending).additionalFields
      == map[OrderKey := "-year"]
  {
    assert Ascending.code + "year" == "year";
    assert Descending.code + "year" == "-year";
  }

  /** TestNoTrailingSlash: with or without the trailing slash, the request
      for team_123 of collection team has the same URL, and without
      parameters it is just the path. */
  lemma NoTrailingSlashScenario()
    ensures ToUrl(NewRequest("https://test.com/api", "team", "team_123"), "")
      == "https://test.com/api/team/team_123/"
    ensures ToUrl(NewRequest("https://test.com/api/", "team", "team_123"), "")
      == "https://test.com/api/team/team_123/"
  {
    TrailingSlashIrrelevant("https://test.com/api", "team", "team_123");
    var r := NewRequest("https://test.com/api/", "team", "team_123");
    assert r.endpoint == "https://test.com/api/";
    assert Path(r) == "https://test.com/api/" + "team" + "/" + "team_123" + "/";
  }

  /** TestAllFields: a request without fields has no parameters, so with
      any encoding that is empty exactly for no parameters its URL is just
      the path. */
  method AllFieldsQuery(encodedQuery: string) returns (q: Values, url: string)
    ensures q == map[]
    ensures (encodedQuery == "" <==> q == map[]) ==> url == "https://test.com/api/driver/driv_123/"
  {
    var r := NewRequest("https://test.com/api/", "driver", "driv_123");
    q := QueryParams(r);
    NoFieldsNoParams(r, q);
    url := ToUrl(r, encodedQuery);
    if encodedQuery == "" <==> q == map[] {
      BarePathWithoutParams(r, q, encodedQuery);
    }
    assert Path(r) == "https://test.com/api/" + "driver" + "/" + "driv_123" + "/";
  }

  /** TestOrder after ordering the request again: only the second order
      is sent. */
  lemma OrderAgainScenario(q: Values, first: Order, second: Order)
    requires IsQueryParams(ReorderedRequest("https://test.com/api/", "race-season", "", "year", "name", "self",
                                            first, second), q)
    ensures q.Keys == {FieldsKey, OrderKey}
    ensures |q[FieldsKey]| == 1 && multiset(CommaSplit(q[FieldsKey][0])) == multiset{"year", "name", "self"}
    ensures q[OrderKey] == [second.code + "year"]
  {
    var r := ReorderedRequest("https://test.com/api/", "race-season", "", "year", "name", "self", first, second);
    FieldFilterNames();
    assert ThreeLeafRoots(Roots(r), "year", "name", "self") && r.additionalFields == map[OrderKey := second.code + "year"] by {
      ReorderShape("https://test.com/api/", "race-season", "", "year", "name", "self", first, second);
    }
    OrderParams(r, "year", "name", "self", second.code + "year", q);
  }

  /** The query parameters QueryParams computes for TestOrder, ordered
      ascending by "year". */
  method OrderQuery() returns (q: Values)
    ensures q.Keys == {FieldsKey, OrderKey}
    ensures |q[FieldsKey]| == 1 && multiset(CommaSplit(q[FieldsKey][0])) == multiset{"year", "name", "self"}
    ensures q[OrderKey] == ["year"]
  {
    q := QueryParams(OrderRequest("https://test.com/api/", "race-season", "", "year", "name", "self", Ascending));
    OrderQueryScenario(q, Ascending);
    assert Ascending.code + "year" == "year";
  }

  /** The query parameters QueryParams computes for the request of
      TestOrder ordered by "year" twice, the second time `second`. */
  method ReorderedQuery(first: Order, second: Order) returns (q: Values)
    ensures q.Keys == {FieldsKey, OrderKey}
    ensures |q[FieldsKey]| == 1 && multiset(CommaSplit(q[FieldsKey][0])) == multiset{"year", "name", "self"}
    ensures q[OrderKey] == [second.code + "year"]
  {
    q := QueryParams(ReorderedRequest("https://test.com/api/", "race-season", "", "year", "name", "self",
                                      first, second));
    OrderAgainScenario(q, first, second);
  }

  /** The query parameters QueryParams computes for TestOrder after the
      request, ordered ascending, is ordered again descending. */
  method OrderAgainQuery() returns (q: Values)
    ensures q.Keys == {FieldsKey, OrderKey}
    ensures |q[FieldsKey]| == 1 && multiset(CommaSplit(q[FieldsKey][0])) == multiset{"year", "name", "self"}
    ensures q[OrderKey] == ["-year"]
  {
    q := ReorderedQuery(Ascending, Descending);
    assert Descending.code + "year" == "-year";
  }

  /** The query parameters QueryParams computes for TestExpandOnly. */
  method ExpandOnlyQuery() returns (q: Values)
    ensures q.Keys == {ExpandKey} && |q[ExpandKey]| == 1
    ensures multiset(CommaSplit(q[ExpandKey][0]))
      == multiset{"driver_urls", "nation_url", "nation_url__eventoccurrence_urls"}
  {
    q := QueryParams(ExpandOnlyRequest("https://test.com/api/", "team", "team_123",
                                       "nation_url", "eventoccurrence_urls", "driver_urls"));
    ExpandOnlyScenario(q);
  }

  /** The query parameters QueryParams computes for TestFieldFilter. */
  method FieldFilterQuery() returns (q: Values)
    ensures q.Keys == {FieldsKey, "year__gt"}
    ensures |q[FieldsKey]| == 1 && multiset(CommaSplit(q[FieldsKey][0])) == multiset{"year", "name", "self"}
    ensures q["year__gt"] == ["2017"]
  {
    q := QueryParams(FieldFilterRequest("https://test.com/api/", "race-season", "",
                                        "year", NewFilter(GreaterThan, "2017"), "name", "self"));
    FieldFilterScenario(q);
  }

  /** The query parameters QueryParams computes for TestRequestFilter. */
  method RequestFilterQuery() returns (q: Values)
    ensures q.Keys == {FieldsKey, "set_type_slug"}
    ensures |q[FieldsKey]| == 1 && multiset(CommaSplit(q[FieldsKey][0])) == multiset{"title", "self"}
    ensures q["set_type_slug"] == ["video"]
  {
    q := QueryParams(RequestFilterRequest("https://test.com/api/", "sets", "", "title", "self",
                                          "set_type_slug", NewFilter(Equals, "video")));
    RequestFilterScenario(q);
  }
}

=== FILE: values.dfy ===
/** Query-parameter collections (the url.Values operations the core uses)
    and the comma-joined single-value accumulator of util.go. */
module QueryValues {

  /** A key maps to a list of values, as in url.Values. */
  type Values = map<string, seq<string>>

  /** Every value stored under `key`; an absent key has none. */
  function Lookup(v: Values, key: string): seq<string> {
    if key in v then v[key] else []
  }

  /** url.Values.Get: the first value under `key`, or "" when there is none. */
  function Get(v: Values, key: string): string {
    if key in v && |v[key]| > 0 then v[key][0] else ""
  }

  /** url.Values.Set: `key` holds exactly `value` afterwards. */
  function Set(v: Values, key: string, value: string): Values {
    v[key := [value]]
  }

  /** url.Values.Add: `value` is appended to the values of `key`. */
  function Add(v: Values, key: string, value: string): Values {
    v[key := Lookup(v, key) + [value]]
  }

  /** One step of the comma accumulator: an empty list becomes `value`,
      anything else gets ",value" appended. */
  function Append(list: string, value: string): string {
    if list == "" then value else list + "," + value
  }

  /** addValue (util.go): reads the first value of `key`, comma-appends
      `value` to it and stores the result as the only value of `key`. */
  function AddValue(v: Values, key: string, value: string): (r: Values)
    ensures r.Keys == v.Keys + {key}
    ensures Get(v, key) == "" ==> r[key] == [value]
    ensures Get(v, key) != "" ==> r[key] == [Get(v, key) + "," + value]
    ensures forall k :: k != key ==> Lookup(r, k) == Lookup(v, k)
  {
    Set(v, key, Append(Get(v, key), value))
  }

  /** The comma list that successive Append steps build from `list`. */
  function AppendAll(list: string, ws: seq<string>): string
    decreases |ws|
  {
    if ws == [] then list else AppendAll(Append(list, ws[0]), ws[1..])
  }

  /** `ws` added one after the other with addValue. */
  function AddValues(v: Values, key: string, ws: seq<string>): Values
    decreases |ws|
  {
    if ws == [] then v else AddValues(AddValue(v, key, ws[0]), key, ws[1..])
  }

  /** An empty name is not a piece of the list: taken first, it leaves the
      list empty, so the next name gets no comma in front and the empty
      name is lost; taken after a name, it leaves a trailing comma. */
  lemma EmptyNameOrder()
    ensures AppendAll("", ["", "a"]) == "a"
    ensures AppendAll("", ["a", ""]) == "a,"
  {
    assert ["", "a"][1..] == ["a"] && ["a", ""][1..] == [""];
    assert AppendAll("", ["a"]) == AppendAll("a", []);
    assert AppendAll("a", [""]) == AppendAll("a" + "," + "", []);
    assert "a" + "," + "" == "a,";
  }

  /** The words of `ws` separated by commas. */
  function CommaJoin(ws: seq<string>): string
    decreases |ws|
  {
    if |ws| == 0 then ""
    else if |ws| == 1 then ws[0]
    else CommaJoin(ws[..|ws| - 1]) + "," + ws[|ws| - 1]
  }

  /** The position of the last comma of `s`. */
  function LastComma(s: string): (i: nat)
    requires ',' in s
    ensures i < |s| && s[i] == ',' && ',' !in s[i + 1..]
  {
    if s[|s| - 1] == ',' then |s| - 1 else LastComma(s[..|s| - 1])
  }

  /** strings.Split(s, ","), the reading of a comma list in the tests: the
      pieces between commas, and [""] for the empty string. */
  function CommaSplit(s: string): seq<string>
    decreases |s|
  {
    if ',' !in s then [s]
    else
      var i := LastComma(s);
      CommaSplit(s[..i]) + [s[i + 1..]]
  }

  /** Several addValue calls leave one value under `key`, built by the
      same comma steps one after the other; other keys do not change. */
  lemma {:induction false} AddValuesAccumulates(v: Values, key: string, ws: seq<string>)
    requires ws != []
    ensures AddValues(v, key, ws).Keys == v.Keys + {key}
    ensures AddValues(v, key, ws)[key] == [AppendAll(Get(v, key), ws)]
    ensures forall k :: k != key ==> Lookup(AddValues(v, key, ws), k) == Lookup(v, k)
    decreases |ws|
  {
    var v' := AddValue(v, key, ws[0]);
    assert Get(v', key) == Append(Get(v, key), ws[0]);
    if ws[1..] != [] {
      AddValuesAccumulates(v', key, ws[1..]);
    }
  }

  /** Appending a list of words, then one more, is one Append step after
      the list. */
  lemma {:induction false} AppendAllSnoc(list: string, ws: seq<string>, w: string)
    ensures AppendAll(list, ws + [w]) == Append(AppendAll(list, ws), w)
    decreases |ws|
  {
    if ws != [] {
      assert (ws + [w])[1..] == ws[1..] + [w];
      AppendAllSnoc(Append(list, ws[0]), ws[1..], w);
    }
  }

  /** Appending `a` then `b` is appending `a + b`. */
  lemma {:induction false} AppendAllConcat(list: string, a: seq<string>, b: seq<string>)
    ensures AppendAll(AppendAll(list, a), b) == AppendAll(list, a + b)
    decreases |a|
  {
    if a == [] {
      assert a + b == b;
    } else {
      assert (a + b)[1..] == a[1..] + b;
      AppendAllConcat(Append(list, a[0]), a[1..], b);
    }
  }

  /** From an empty list, non-empty words are joined by commas. */
  lemma {:induction false} AppendAllJoins(ws: seq<string>)
    requires forall i :: 0 <= i < |ws| ==> ws[i] != ""
    ensures AppendAll("", ws) == CommaJoin(ws)
    ensures ws != [] ==> AppendAll("", ws) != ""
    decreases |ws|
  {
    if ws != [] {
      var init, last := ws[..|ws| - 1], ws[|ws| - 1];
      assert ws == init + [last];
      AppendAllJoins(init);
      AppendAllSnoc("", init, last);
      if init == [] {
        assert AppendAll("", init) == "";
      }
    }
  }

  /** Repeatedly adding non-empty words w1..wn to a key that holds no
      list yet stores "w1,...,wn". */
  lemma AddValuesJoins(v: Values, key: string, ws: seq<string>)
    requires Get(v, key) == ""
    requires ws != []
    requires forall i :: 0 <= i < |ws| ==> ws[i] != ""
    ensures Lookup(AddValues(v, key, ws), key) == [CommaJoin(ws)]
  {
    AddValuesAccumulates(v, key, ws);
    AppendAllJoins(ws);
  }

  /** The last comma of "a,w" is the one after `a` when `w` has none. */
  lemma {:induction false} LastCommaAfter(a: string, w: string)
    requires ',' !in w
    ensures LastComma(a + "," + w) == |a|
    decreases |w|
  {
    var s := a + "," + w;
    if w != [] {
      assert s[|s| - 1] == w[|w| - 1];
      assert s[..|s| - 1] == a + "," + w[..|w| - 1];
      LastCommaAfter(a, w[..|w| - 1]);
    }
  }

  /** Splitting "a,w" with a comma-free `w` splits `a` and adds `w`. */
  lemma SplitSnoc(a: string, w: string)
    requires ',' !in w
    ensures CommaSplit(a + "," + w) == CommaSplit(a) + [w]
  {
    var s := a + "," + w;
    LastCommaAfter(a, w);
    assert s[..|a|] == a;
    assert s[|a| + 1..] == w;
  }

  /** Splitting a comma join of comma-free words gives the words back. */
  lemma {:induction false} SplitJoin(ws: seq<string>)
    requires ws != []
    requires forall i :: 0 <= i < |ws| ==> ',' !in ws[i]
    ensures CommaSplit(CommaJoin(ws)) == ws
    decreases |ws|
  {
    if |ws| > 1 {
      var init, last := ws[..|ws| - 1], ws[|ws| - 1];
      SplitSnoc(CommaJoin(init), last);
      SplitJoin(init);
      assert ws == init + [last];
    }
  }
}
